=== FILE: README.md ===
# StudyBot router, modelled in Dafny

StudyBot is a small Flask back end whose one useful endpoint, `POST /answer`, takes a
free-text question and answers it in one of three ways:

- from a static knowledge base of four topics, reached through an alias table;
- from one of four web services: weather, stock quote, news headlines or dictionary;
- from a chat-completion model as the last resort.

This project models the decisions `app.py` makes along the way, and proves properties of them.

- `intents.dfy`: the keyword classifier. Weather beats stock, stock beats news, and news beats dictionary. A question with no keyword goes to the knowledge base.
- `scan.dfy`: the part of Python `re.search` the three extractor patterns use. Heads are literal words, optional or required linking words follow, and the captured run is greedy with backtracking. The leftmost match is stated declaratively and the scanner is proved to find it. The ticker and word extractors use that scanner. The city pattern's tail is optional, so its search always stops at the first "weather"; the city extractor therefore matches only there.
- `extractors.dfy`: `extract_city`, `extract_ticker` and `extract_word` as scanners over the lower-cased question. They keep the patterns' quirks.
  - In "stock price of x", the ticker is "PRICE".
  - After "weather in" and only white space, the city is "".
  - The search stops at the first "weather" even when its tail fails.
- `extractor_examples.dfy`: these quirks computed from the scanners.
- `knowledge.dfy`: the knowledge base in insertion order, the alias table, and the exact and substring lookups.
- `adapters.dfy`: each adapter maps an abstract provider reply to the reply envelope (`ok`, answer text, suggestions). Provider results are values: a call that raises, or a status with an optional body.
  - The news headline builder is modelled together with its read-back. For titles without line breaks, a headlines message split into lines gives back its heading and one bullet per kept title.
- `router.dfy`: the `answer` handler.
  - It strips the question and sends a blank one to guidance.
  - It lower-cases and strips a copy and resolves an exact alias.
  - It classifies the question as asked.
  - For a knowledge-base question it tries an exact key, then the first key in insertion order that occurs inside the cleaned question, then the model.
  - Any other intent goes to exactly one adapter.
- `router_examples.dfy`: whole requests worked through the router.
- `text.dfy`, `options.dfy`: the string functions the code uses (ASCII `lower`, `upper`, `title`, `capitalize`, `strip`, `in`, `"\n".join`) and `Option`. A line splitter is added as the inverse of the join, to read headline messages back. White space, for `\s` and for `strip()`, is the set `str.isspace` accepts, written out in `Text.IsSpace`.

The model follows the code, including these behaviours a reader may not expect:

- A completion with no content, or with only white space, gives `ok` with an empty answer. It is not an error.
- The stock adapter never reads the status code. A reply without a truthy price is refused whatever its status.
- A weather, news or dictionary reply whose fields cannot be read gives that service's timeout message. The code reaches its `except` branch there, not the "couldn't fetch" branch, which only a non-200 status reaches.
- For stocks, a reply that cannot be decoded as JSON gives the timeout message; a decoded reply without a "Global Quote" is a quote with no price and gives the "couldn't fetch" message.
- The dictionary adapter has no key to check, so it is never "not configured".
- "No headlines found." is sent with `ok` set to true.
- An alias never overrides a service keyword. "define noun" is in the alias table, but it goes to the dictionary adapter because the intent is read off the original question.

## Model

| member | source | states |
|---|---|---|
| Intents.Classify | app.py:37-47 | the intent is Weather iff a weather keyword occurs in the lower-cased text; Stock iff no weather keyword occurs but a stock keyword does; the same priority for News and Dictionary; Kb iff no keyword of any list occurs |
| Intents.ClassifyEmpty | app.py:37-47 | the empty text mentions no keyword, so it is classified as a knowledge-base question |
| Intents.ClassifyIgnoresCase | app.py:38 | classifying the lower-cased text gives the same intent as classifying the text |
| Intents.ClassifyNewsletter | app.py:43 | "newsletter" contains "news" and no weather or stock keyword, so it is classified as news |
| Intents.ClassifyWeatherBeforeStock | app.py:39-42 | "weather and stock price" mentions a stock keyword, yet it is classified as weather |
| Scan.SearchIsLeftmost | app.py:80-82 | the scanner reports nothing iff the pattern matches at no index; otherwise its match starts at the leftmost matching index and has the group the backtracking matcher prefers there; it is the search of the ticker pattern here and of the word pattern at app.py:128-130 (the city search stops at the first "weather" instead) |
| Extractors.ExtractCity | app.py:52-54 | without "weather", or with no group after the first "weather", the city is the default; otherwise it is the title-cased, stripped group of the first "weather"; the result is the default or is made of letters and spaces with none at either end |
| Extractors.ExtractTicker | app.py:80-82 | with no match anywhere the ticker is "TSLA"; otherwise it is the upper-cased group of the leftmost match; it always has 1 to 10 characters, each an upper-case letter, '.', ':' or '-' |
| Extractors.ExtractWord | app.py:128-130 | the result is None iff the pattern matches nowhere; otherwise it is the group of the leftmost match, non-empty, of lower-case letters and '-' |
| Extractors.DictionaryWord | app.py:133 | the looked-up word is the extracted word when there is one, else "innovation"; it is never empty |
| ExtractorExamples.TickerOfStockPriceOfX | app.py:81-82 | the ticker of "stock price of x" is "PRICE": "of" is optional and "price" fits the ticker class |
| ExtractorExamples.TickerOfPriceOfAapl | app.py:81-82 | the ticker of "price of AAPL" is "AAPL": the optional "of" is taken when the rest still matches |
| ExtractorExamples.CityOfWeatherInBlank | app.py:53-54 | the city of "weather in" followed by two spaces is the empty string, not the default |
| ExtractorExamples.CityStopsAtFirstWeather | app.py:53-54 | the city of "weather weather in paris" is the default, because the search commits to the first "weather" |
| ExtractorExamples.WordOfMeaningOf42 | app.py:129-130 | the word of "meaning of 42" is "of" |
| Knowledge.Lookup | app.py:198-199 | a key has an entry iff it is a topic, and the entry is that topic's stored text |
| Knowledge.FirstTopicIn | app.py:200-202 | the chosen index is a topic that occurs in the text, and no earlier topic occurs in it; nothing is chosen iff no topic occurs |
| Knowledge.ResolveAlias | app.py:191-193 | an exact alias is replaced by its topic, which is a knowledge-base key; any other text is unchanged |
| Knowledge.NoTopicInsideAnother | app.py:20-25 | no topic key occurs inside a different key |
| Knowledge.ExactHitIsFirstTopic | app.py:198-202 | when the cleaned question is a topic, the substring scan would choose the same entry as the exact lookup |
| Adapters.Assess | app.py:57-75 | a missing key fails as not configured, before any call; a call that raises or gives no readable body is a timeout; the reply is used iff the status check, when one is made, passes and the body is usable |
| Adapters.WeatherAnswer | app.py:56-75 | with no key, the not-configured envelope; ok iff the call for the extracted city answers 200 with readable fields; a raising call, or a 200 reply whose fields cannot be read, gives the timeout envelope; a non-200 status gives the "couldn't fetch weather" envelope naming the extracted city; a successful answer is the report for the extracted city; three suggestions |
| Adapters.WeatherReport | app.py:71 | a city without a colon is read back from its report as the text between "Weather in " and the first colon |
| Adapters.WeatherReportNamesCity | app.py:59-71 | reading back the text between "Weather in " and the first colon of a weather report gives the city that was extracted from the question |
| Adapters.StockAnswer | app.py:84-104 | with no key, the not-configured envelope; ok iff the call for the extracted ticker returns a quote with a non-empty price, whatever the status; a raising call or an unreadable reply gives the timeout envelope; a quote without a non-empty price gives the "couldn't fetch" envelope naming the ticker; a successful answer is the quote report for that ticker |
| Adapters.QuoteReport | app.py:100 | a ticker without a space is read back from its report as the text before the first space, less its colon |
| Adapters.QuoteReportNamesTicker | app.py:87-100 | reading back the text before the first space of a quote report, less its colon, gives the extracted ticker |
| Adapters.KeptTitles | app.py:119 | a title is kept iff it is a non-empty title of some article; no more titles are kept than there are articles |
| Adapters.KeptTitlesSelects | app.py:119 | the kept titles are exactly the non-empty titles, each once, in article order |
| Adapters.HeadlinesMessage | app.py:118-120 | the message is "No headlines found." iff none of the first three articles has a non-empty title |
| Adapters.HeadlinesRoundTrip | app.py:118-120 | at most three titles are kept; with none kept the message is "No headlines found."; otherwise, for titles without line breaks, splitting the message at line breaks gives back "Top headlines:" followed by one bullet per kept title |
| Adapters.NewsAnswer | app.py:109-123 | with no key, the not-configured envelope; ok iff the call answers 200 with a body; a raising call, or a 200 reply that cannot be read, gives the timeout envelope; a non-200 status gives the "couldn't fetch headlines" envelope; a successful answer is the headlines message of the articles |
| Adapters.DictionaryAnswer | app.py:132-145 | no key is needed; ok iff the call for the looked-up word answers 200 with a body; a raising call, or a 200 reply that cannot be read, gives the timeout envelope; a non-200 status gives the "couldn't find a definition" envelope naming the word; a successful answer is the capitalised word and the first definition |
| Adapters.DefinitionReport | app.py:143 | for a word without a colon, the text before the first colon of the report is the capitalised word and the text after ": " is the first definition |
| Adapters.DefinitionReportNamesWord | app.py:133-143 | reading back the text before the first colon of a definition report gives the capitalised word that was looked up |
| Adapters.DefinitionReportGivesDefinition | app.py:139-143 | for every question, the text after the headword of a definition report is the first definition of the first meaning, or "No definition available." when there is no meaning or the first has no definitions |
| Adapters.LlmAnswer | app.py:150-171 | with no key, the not-configured envelope; ok iff the completion call returns; an error gives the failure envelope; a successful answer is the stripped content, with missing content read as "" |
| Adapters.LlmAnswerIsStripped | app.py:160-165 | a successful fallback answer has no surrounding white space, and it is empty iff the content was missing or blank |
| Adapters.WeatherTimeoutSaysTimeout | app.py:75 | the weather timeout message contains the word "timeout" |
| Adapters.StocksTimeoutSaysTimeout | app.py:104 | the stock timeout message contains the word "timeout" |
| Adapters.NewsTimeoutSaysTimeout | app.py:123 | the news timeout message contains the word "timeout" |
| Adapters.DictionaryTimeoutSaysTimeout | app.py:145 | the dictionary timeout message contains the word "timeout" |
| Text.SplitJoin | app.py:120 | joining lines without line breaks with "\n" and splitting the result at "\n" gives back the lines |
| Text.StripIdempotent | app.py:183 | stripping a stripped string changes nothing |
| Router.Question | app.py:182-184 | the stripped question is empty iff the field is missing or blank |
| Router.Cleaned | app.py:191-193 | the cleaned question is the lower-cased, stripped question, or the topic it is an alias of when it is one; it has no upper-case letter, no surrounding white space, and is never itself an alias |
| Router.CleanedIdempotent | app.py:191-193 | cleaning a cleaned question changes nothing: alias resolution is a single, final step |
| Router.TopicFor | app.py:197-203 | a topic is found iff the cleaned question is a topic or has one inside it; the topic found is the question itself when it is a topic, else the first topic in insertion order inside it |
| Router.RouteOf | app.py:183-214 | guidance iff the question is empty; an adapter iff the question is not empty and its intent is not kb, and then the adapter of that intent; a knowledge-base answer only for a kb question, with the topic chosen from the cleaned question; the model iff a kb question has no topic in its cleaned form |
| Router.ServiceAnswer | app.py:205-212 | each service intent is answered by exactly its adapter |
| Router.TimeoutsSayTimeout | app.py:56-145 | for every service intent, when its key is set and its call raises or its reply cannot be read, the answer is not ok and contains "timeout" |
| Router.Answer | app.py:181-214 | a blank question gets the guidance envelope; a knowledge-base route answers ok with the stored text of its topic; an adapter route is that adapter's envelope; the fallback route is the model's envelope; every route except the fallback gives a non-empty answer |
| Router.GuidanceOffersTopics | app.py:184-189 | the guidance suggests exactly the topic keys, in order |
| Router.LocalAnswersIgnoreServices | app.py:184-202 | guidance and knowledge-base answers are the same whatever the configuration and whatever the providers return |
| Router.TopicIsFirstInside | app.py:197-202 | whenever the knowledge-base step finds a topic, it is the first topic in insertion order inside the cleaned question, whether the exact lookup or the scan found it |
| RouterExamples.BlankQuestionGetsGuidance | app.py:182-189 | a missing question and a question of spaces and tabs both get the guidance |
| RouterExamples.BothGravityPhrasingsAgree | app.py:191-202 | "What is gravity" (through its alias) and "what is   gravity" (through the substring scan) both get the gravity entry |
| RouterExamples.RouteGravitation | app.py:191-199 | "gravitation" resolves through its alias to the gravity entry |
| RouterExamples.RouteDefineNoun | app.py:191-212 | "define noun" is an alias, yet it goes to the dictionary adapter because the intent is read off the question as asked |
| RouterExamples.RouteSky | app.py:197-203 | a question with no keyword and no topic inside it falls back to the model |

## Left out

- The Flask application, CORS, `jsonify`, HTTP status codes of the endpoint, and the `GET /` home route. They carry no decision; the model returns the envelope `(ok, answer, suggestions)`.
- Request parsing. `request.get_json(silent=True) or request.form` is modelled as one optional question field. A non-string question value is not modelled.
- Environment variables. Each key's presence is one boolean in `Config`.
- Network calls, URLs, timeouts and JSON decoding. Each provider is a function from its parameter to a `Reply`: it raises, or it gives a status and an optional body. A body that is `None` stands for any reply whose fields cannot be read, which the code turns into its timeout message.
- The chat-completion client. It is a function from the question to `Errored` or `Completed(content)`. The model name, token limit and temperature are not modelled.
- Number formatting. Temperatures, humidity, prices and changes are opaque strings, already rendered as Python's f-string would render them.
- Non-ASCII case mapping. `lower`, `upper`, `title` and `capitalize` map only ASCII letters. Python also maps other Unicode letters, and the regex character classes would then see different text.

=== FILE: adapters.dfy ===
/** The service adapters of app.py: each calls one provider and turns what
    comes back into the reply envelope. The network is not modelled: a
    provider is a function from the request parameter to what the call came
    back with. */
module Adapters {

  import opened Options
  import opened Text
  import opened Extractors

  /** The JSON object every path of the handler returns. */
  datatype Envelope = Envelope(ok: bool, answer: string, suggestions: seq<string>)

  /** What a provider call came back with: it raised (a timeout, a refused
      connection), or it returned a status code and, when the adapter could
      read every field it reads, those fields (`None` when a read raised). */
  datatype Reply<T> = Raised | Replied(status: int, body: Option<T>)

  /** What the chat completion call came back with. */
  datatype Completion = Errored | Completed(content: Option<string>)

  /** The three ways an adapter fails. */
  datatype Failure = NotConfigured | Unavailable | TimedOut

  datatype Outcome<T> = Fetched(value: T) | Failed(why: Failure)

  /** Which provider keys are set in the environment. */
  datatype Config = Config(weather: bool, stocks: bool, news: bool, llm: bool)

  /** The fields of a current-weather response, already rendered. */
  datatype Conditions = Conditions(temperature: string, description: string, humidity: string)

  /** The fields of a global-quote response; any of them may be missing. */
  datatype Quote = Quote(price: Option<string>, change: Option<string>, percent: Option<string>)

  /** The `definition` field of each definition of one meaning. */
  type Definitions = seq<Option<string>>

  /** Python truthiness of an optional string. */
  predicate Truthy(s: Option<string>)
  {
    s.Some? && s.value != []
  }

  /** An f-string renders a missing value as `None`. */
  function Show(s: Option<string>): (r: string)
    ensures s.Some? ==> r == s.value
    ensures s.None? ==> r == "None"
  {
    s.GetOr("None")
  }

  /** The failure handling every adapter shares: a missing key fails before
      any call, a call that raises or whose fields cannot be read is a
      timeout, and a reply that is refused (by status, when the adapter
      checks it, or by `usable`) is unavailable. */
  function Assess<T>(configured: bool, checksStatus: bool, usable: T -> bool, reply: Reply<T>): (r: Outcome<T>)
    ensures r == Failed(NotConfigured) <==> !configured
    ensures r == Failed(TimedOut) <==>
      (configured && (reply.Raised? || ((!checksStatus || reply.status == 200) && reply.body.None?)))
    ensures r.Fetched? <==>
      (configured && reply.Replied? && (!checksStatus || reply.status == 200)
       && reply.body.Some? && usable(reply.body.value))
    ensures r.Fetched? ==> reply.body == Some(r.value)
  {
    if !configured then Failed(NotConfigured)
    else match reply
      case Raised => Failed(TimedOut)
      case Replied(status, body) =>
        if checksStatus && status != 200 then Failed(Unavailable)
        else match body
          case None => Failed(TimedOut)
          case Some(v) => if usable(v) then Fetched(v) else Failed(Unavailable)
  }

  // ---------------------------------------------------------------------
  // Weather

  const WeatherNotConfigured: Envelope :=
    Envelope(false, "Weather not configured. Missing OPENWEATHERMAP_KEY.", ["Help", "Ask another topic", "Top news"])
  const WeatherTimeout: Envelope :=
    Envelope(false, "Weather service timeout. Try again.", ["Top news", "Stock price", "Help"])

  /** A non-200 status names the city in its apology. */
  function WeatherUnavailable(city: string): Envelope
  {
    Envelope(false, "Couldn\U{2019}t fetch weather for " + city + ".", ["Ask another topic", "Product demo", "Help"])
  }

  /** The report of the conditions in `city`; a city without a colon can
      be read back from it. */
  function WeatherReport(city: string, c: Conditions): (r: string)
    ensures ':' !in city ==> ReportedCity(r) == Some(city)
  {
    var rest := ": " + c.temperature + "\U{00B0}C, " + c.description + ", humidity " + c.humidity + "%.";
    CityReadBack(city, rest);
    "Weather in " + city + rest
  }

  /** `get_weather_response`: the key is checked before the city is even
      extracted; a non-200 status names the city in its apology. */
  function WeatherAnswer(question: string, configured: bool, fetch: string -> Reply<Conditions>): (r: Envelope)
    ensures !configured ==> r == WeatherNotConfigured
    ensures var reply := fetch(ExtractCity(question));
      r.ok <==> configured && reply.Replied? && reply.status == 200 && reply.body.Some?
    ensures configured && fetch(ExtractCity(question)).Raised? ==> r == WeatherTimeout
    ensures var reply := fetch(ExtractCity(question));
      configured && reply.Replied? && reply.status == 200 && reply.body.None? ==> r == WeatherTimeout
    ensures var reply := fetch(ExtractCity(question));
      configured && reply.Replied? && reply.status != 200 ==> r == WeatherUnavailable(ExtractCity(question))
    ensures var reply := fetch(ExtractCity(question));
      r.ok ==> r.answer == WeatherReport(ExtractCity(question), reply.body.value)
    ensures r.answer != []
    ensures |r.suggestions| == 3
  {
    var city := ExtractCity(question);
    match Assess(configured, true, (_: Conditions) => true, if configured then fetch(city) else Raised)
    case Failed(NotConfigured) => WeatherNotConfigured
    case Failed(TimedOut) => WeatherTimeout
    case Failed(Unavailable) => WeatherUnavailable(city)
    case Fetched(c) =>
      Envelope(true, WeatherReport(city, c), ["Ask another topic", "Check stock price", "Top news"])
  }

  /** The city of a weather report, read back as the text between
      "Weather in " and the first colon. */
  function ReportedCity(answer: string): (r: Option<string>)
    ensures r.Some? ==> ':' !in r.value
  {
    if |answer| < 11 || answer[..11] != "Weather in " then None
    else match IndexFrom(answer, ":", 11)
      case None => None
      case Some(k) =>
        assert forall x :: 11 <= x < k ==> answer[x] != ':' by {
          forall x | 11 <= x < k ensures answer[x] != ':' {
            assert !StartsAt(answer, x, ":");
          }
        }
        Some(answer[11..k])
  }

  /** A colon-free city is read back from any text of the report's shape. */
  lemma CityReadBack(city: string, rest: string)
    requires rest != [] && rest[0] == ':'
    ensures ':' !in city ==> ReportedCity("Weather in " + city + rest) == Some(city)
  {
    if ':' !in city {
      var s := "Weather in " + city + rest;
      assert s[..11] == "Weather in " && s[11..11 + |city|] == city && s[11 + |city|] == ':';
      FirstSeparator(s, 11, city, ':');
    }
  }

  /** The city is the default one or letters and spaces: never a colon. */
  lemma CityHasNoColon(question: string)
    ensures ':' !in ExtractCity(question)
  {
    NoColonInCityText(ExtractCity(question));
  }

  lemma NoColonInCityText(r: string)
    requires r == DefaultCity || forall c :: c in r ==> IsLetter(c) || IsSpace(c)
    ensures ':' !in r
  {
    if r == DefaultCity {
      assert ':' !in DefaultCity;
    } else {
      assert !IsSpace(':') && !IsLetter(':');
    }
  }

  /** A weather report names the city the question asked about. */
  lemma WeatherReportNamesCity(question: string, c: Conditions)
    ensures ReportedCity(WeatherReport(ExtractCity(question), c)) == Some(ExtractCity(question))
  {
    CityHasNoColon(question);
  }

  // ---------------------------------------------------------------------
  // Stocks

  const StocksNotConfigured: Envelope :=
    Envelope(false, "Stocks not configured. Missing ALPHAVANTAGE_KEY.", ["Weather", "Top news", "Help"])
  const StocksTimeout: Envelope :=
    Envelope(false, "Stock service timeout. Try again.", ["Weather", "Top news", "Help"])

  /** A quote without a truthy price names the ticker in its apology. */
  function StockUnavailable(ticker: string): Envelope
  {
    Envelope(false, "Couldn\U{2019}t fetch " + ticker + ". Try another symbol.", ["Top news", "Weather", "Help"])
  }

  /** The report of a quote with a price; a ticker without a space can be
      read back from it. */
  function QuoteReport(ticker: string, q: Quote): (r: string)
    requires Truthy(q.price)
    ensures ' ' !in ticker ==> ReportedTicker(r) == Some(ticker)
  {
    var rest := ": $" + q.price.value + " (" + Show(q.change) + " / " + Show(q.percent) + ").";
    TickerReadBack(ticker, rest);
    ticker + rest
  }

  /** `get_stock_response`: the status code is never looked at; a quote
      without a truthy price is refused, and a missing change or change
      percent is rendered as `None`. */
  function StockAnswer(question: string, configured: bool, fetch: string -> Reply<Quote>): (r: Envelope)
    ensures !configured ==> r == StocksNotConfigured
    ensures var reply := fetch(ExtractTicker(question));
      r.ok <==> configured && reply.Replied? && reply.body.Some? && Truthy(reply.body.value.price)
    ensures configured && fetch(ExtractTicker(question)).Raised? ==> r == StocksTimeout
    ensures var reply := fetch(ExtractTicker(question));
      configured && reply.Replied? && reply.body.None? ==> r == StocksTimeout
    ensures var reply := fetch(ExtractTicker(question));
      (configured && reply.Replied? && reply.body.Some? && !Truthy(reply.body.value.price))
      ==> r == StockUnavailable(ExtractTicker(question))
    ensures var reply := fetch(ExtractTicker(question));
      r.ok ==> r.answer == QuoteReport(ExtractTicker(question), reply.body.value)
    ensures r.answer != []
    ensures |r.suggestions| == 3
  {
    var ticker := ExtractTicker(question);
    match Assess(configured, false, (q: Quote) => Truthy(q.price), if configured then fetch(ticker) else Raised)
    case Failed(NotConfigured) => StocksNotConfigured
    case Failed(TimedOut) => StocksTimeout
    case Failed(Unavailable) => StockUnavailable(ticker)
    case Fetched(q) =>
      Envelope(true, QuoteReport(ticker, q), ["Ask another topic", "Top news", "Weather"])
  }

  /** The ticker of a quote report, read back as the text before the first
      space, less its colon. */
  function ReportedTicker(answer: string): (r: Option<string>)
  {
    match IndexFrom(answer, " ", 0)
    case None => None
    case Some(k) => if k == 0 then None else Some(answer[..k - 1])
  }

  /** A space-free ticker is read back from any text of the report's shape. */
  lemma TickerReadBack(ticker: string, rest: string)
    requires |rest| >= 2 && rest[0] == ':' && rest[1] == ' '
    ensures ' ' !in ticker ==> ReportedTicker(ticker + rest) == Some(ticker)
  {
    if ' ' !in ticker {
      var s := ticker + rest;
      var head := ticker + ":";
      assert ' ' !in head;
      assert s[..|head|] == head && s[|head|] == ' ';
      FirstSeparator(s, 0, head, ' ');
      assert s[..|head| - 1] == ticker;
    }
  }

  /** A quote report names the ticker the question asked about. */
  lemma QuoteReportNamesTicker(question: string, q: Quote)
    requires Truthy(q.price)
    ensures ReportedTicker(QuoteReport(ExtractTicker(question), q)) == Some(ExtractTicker(question))
  {
    ExtractTickerHasNoSpace(question);
  }

  lemma ExtractTickerHasNoSpace(question: string)
    ensures ' ' !in ExtractTicker(question)
  {
    assert !IsUpper(' ');
  }

  // ---------------------------------------------------------------------
  // News

  const NewsNotConfigured: Envelope :=
    Envelope(false, "News not configured. Missing NEWSAPI_KEY.", ["Weather", "Stock price", "Help"])
  const NewsTimeout: Envelope :=
    Envelope(false, "News service timeout. Try again.", ["Weather", "Stock price", "Help"])
  const NewsUnavailable: Envelope :=
    Envelope(false, "Couldn\U{2019}t fetch headlines right now.", ["Weather", "Stock price", "Help"])
  const NoHeadlines: string := "No headlines found."
  const HeadlinesTitle: string := "Top headlines:"

  /** The truthy titles among `titles`, in order. */
  function KeptTitles(titles: seq<Option<string>>): (r: seq<string>)
    ensures |r| <= |titles|
    ensures forall s :: s in r <==> s != [] && Some(s) in titles
    decreases |titles|
  {
    if titles == [] then []
    else
      var rest := KeptTitles(titles[1..]);
      assert forall s :: Some(s) in titles <==> titles[0] == Some(s) || Some(s) in titles[1..] by {
        assert titles == [titles[0]] + titles[1..];
      }
      if Truthy(titles[0]) then [titles[0].value] + rest else rest
  }

  /** `f` picks out of `titles`, in increasing order, exactly the truthy
      titles, and they are `r`. */
  ghost predicate Selects(f: seq<nat>, titles: seq<Option<string>>, r: seq<string>)
  {
    && |f| == |r|
    && (forall n :: 0 <= n < |f| ==> f[n] < |titles| && titles[f[n]] == Some(r[n]) && r[n] != [])
    && (forall n, m :: 0 <= n < m < |f| ==> f[n] < f[m])
    && (forall a :: 0 <= a < |titles| && Truthy(titles[a]) ==> a in f)
  }

  /** Shifting a selection of `rest` by one selects the same titles out of
      `[t0] + rest`, leaving out the first. */
  lemma SelectsShift(t0: Option<string>, rest: seq<Option<string>>, g: seq<nat>, kept: seq<string>)
    returns (shifted: seq<nat>)
    requires Selects(g, rest, kept)
    ensures |shifted| == |kept|
    ensures forall n :: 0 <= n < |shifted| ==>
      0 < shifted[n] <= |rest| && ([t0] + rest)[shifted[n]] == Some(kept[n]) && kept[n] != []
    ensures forall n, m :: 0 <= n < m < |shifted| ==> shifted[n] < shifted[m]
    ensures forall a :: 1 <= a <= |rest| && Truthy(([t0] + rest)[a]) ==> a in shifted
  {
    var titles := [t0] + rest;
    shifted := seq(|g|, n requires 0 <= n < |g| => g[n] + 1);
    forall n | 0 <= n < |g|
      ensures titles[shifted[n]] == Some(kept[n])
    {
      assert titles[g[n] + 1] == rest[g[n]];
    }
    forall a | 1 <= a <= |rest| && Truthy(titles[a])
      ensures a in shifted
    {
      assert titles[a] == rest[a - 1];
      var n :| 0 <= n < |g| && g[n] == a - 1;
      assert shifted[n] == a;
    }
  }

  lemma SelectsKeep(t0: Option<string>, rest: seq<Option<string>>, g: seq<nat>, kept: seq<string>)
    returns (f: seq<nat>)
    requires Truthy(t0) && Selects(g, rest, kept)
    ensures Selects(f, [t0] + rest, [t0.value] + kept)
  {
    var titles := [t0] + rest;
    var r := [t0.value] + kept;
    f := seq(|g| + 1, n requires 0 <= n <= |g| => if n == 0 then 0 else g[n - 1] + 1);
    forall n | 0 <= n < |f|
      ensures f[n] < |titles| && titles[f[n]] == Some(r[n]) && r[n] != []
    {
      if n > 0 {
        assert titles[g[n - 1] + 1] == rest[g[n - 1]] && r[n] == kept[n - 1];
      }
    }
    forall a | 0 <= a < |titles| && Truthy(titles[a])
      ensures a in f
    {
      if a > 0 {
        assert titles[a] == rest[a - 1];
        var n :| 0 <= n < |g| && g[n] == a - 1;
        assert f[n + 1] == a;
      } else {
        assert f[0] == 0;
      }
    }
  }

  lemma SelectsSkip(t0: Option<string>, rest: seq<Option<string>>, g: seq<nat>, kept: seq<string>)
    returns (f: seq<nat>)
    requires !Truthy(t0) && Selects(g, rest, kept)
    ensures Selects(f, [t0] + rest, kept)
  {
    var titles := [t0] + rest;
    f := SelectsShift(t0, rest, g, kept);
    forall a | 0 <= a < |titles| && Truthy(titles[a])
      ensures a in f
    {
      assert a != 0;
    }
  }

  /** The kept titles are the truthy titles, each once, in their order. */
  lemma {:induction false} KeptTitlesSelects(titles: seq<Option<string>>) returns (f: seq<nat>)
    ensures Selects(f, titles, KeptTitles(titles))
    decreases |titles|
  {
    if titles == [] {
      f := [];
    } else {
      var g := KeptTitlesSelects(titles[1..]);
      assert titles == [titles[0]] + titles[1..];
      if Truthy(titles[0]) {
        f := SelectsKeep(titles[0], titles[1..], g, KeptTitles(titles[1..]));
      } else {
        f := SelectsSkip(titles[0], titles[1..], g, KeptTitles(titles[1..]));
      }
    }
  }

  function Bullets(kept: seq<string>): (r: seq<string>)
    ensures |r| == |kept| && forall n :: 0 <= n < |kept| ==> r[n] == "- " + kept[n]
  {
    seq(|kept|, n requires 0 <= n < |kept| => "- " + kept[n])
  }

  /** The first three articles' truthy titles as bullet lines under a
      heading, or a fixed line when none is left. */
  function HeadlinesMessage(articles: seq<Option<string>>): (r: string)
    ensures r == NoHeadlines <==> forall a :: 0 <= a < |articles| && a < 3 ==> !Truthy(articles[a])
  {
    var first := articles[..if |articles| < 3 then |articles| else 3];
    var kept := KeptTitles(first);
    if kept == [] then
      assert forall a :: 0 <= a < |articles| && a < 3 ==> !Truthy(articles[a]) by {
        forall a | 0 <= a < |articles| && a < 3 ensures !Truthy(articles[a]) {
          assert first[a] == articles[a];
        }
      }
      NoHeadlines
    else
      assert kept[0] in kept;
      var a :| 0 <= a < |first| && first[a] == Some(kept[0]);
      assert Truthy(articles[a]);
      var r := HeadlinesTitle + "\n" + JoinLines(Bullets(kept));
      assert r[0] != NoHeadlines[0];
      r
  }

  /** Split back into lines, a headlines message is its heading and one
      bullet per kept title, at most three; with no title kept it is the
      fixed line. Titles holding a line break would split further. */
  lemma HeadlinesRoundTrip(articles: seq<Option<string>>)
    requires forall a :: 0 <= a < |articles| && articles[a].Some? ==> '\n' !in articles[a].value
    ensures var kept := KeptTitles(articles[..if |articles| < 3 then |articles| else 3]);
      && |kept| <= 3
      && (kept == [] ==> HeadlinesMessage(articles) == NoHeadlines)
      && (kept != [] ==> SplitLines(HeadlinesMessage(articles)) == [HeadlinesTitle] + Bullets(kept))
  {
    var first := articles[..if |articles| < 3 then |articles| else 3];
    var kept := KeptTitles(first);
    if kept != [] {
      var lines := [HeadlinesTitle] + Bullets(kept);
      assert lines[1..] == Bullets(kept);
      assert JoinLines(lines) == HeadlinesMessage(articles);
      forall n | 0 <= n < |lines| ensures '\n' !in lines[n] {
        if n > 0 {
          var t := kept[n - 1];
          assert t in kept;
          var a :| 0 <= a < |first| && first[a] == Some(t);
          assert articles[a] == Some(t);
          assert lines[n] == "- " + t;
        }
      }
      SplitJoin(lines);
    }
  }

  /** `get_news_response`: a non-200 status is refused; otherwise the answer
      succeeds, with or without headlines. */
  function NewsAnswer(configured: bool, reply: Reply<seq<Option<string>>>): (r: Envelope)
    ensures !configured ==> r == NewsNotConfigured
    ensures r.ok <==> configured && reply.Replied? && reply.status == 200 && reply.body.Some?
    ensures configured && reply.Raised? ==> r == NewsTimeout
    ensures configured && reply.Replied? && reply.status == 200 && reply.body.None? ==> r == NewsTimeout
    ensures configured && reply.Replied? && reply.status != 200 ==> r == NewsUnavailable
    ensures r.ok ==> r.answer == HeadlinesMessage(reply.body.value)
    ensures r.answer != []
    ensures |r.suggestions| == 3
  {
    match Assess(configured, true, (_: seq<Option<string>>) => true, if configured then reply else Raised)
    case Failed(NotConfigured) => NewsNotConfigured
    case Failed(TimedOut) => NewsTimeout
    case Failed(Unavailable) => NewsUnavailable
    case Fetched(articles) =>
      Envelope(true, HeadlinesMessage(articles), ["Ask another topic", "Weather", "Stock price"])
  }

  // ---------------------------------------------------------------------
  // Dictionary

  const DictionaryTimeout: Envelope :=
    Envelope(false, "Dictionary service timeout. Try again.", ["Top news", "Weather", "Help"])
  const NoDefinition: string := "No definition available."

  /** The first definition of the first meaning, or the fallback text when
      there is none. */
  function FirstDefinition(meanings: seq<Definitions>): string
  {
    var defs := if meanings == [] then [] else meanings[0];
    if defs == [] then NoDefinition else Show(defs[0])
  }

  /** A non-200 status names the word in its apology. */
  function DefinitionMissing(word: string): Envelope
  {
    Envelope(false, "Couldn\U{2019}t find a definition for '" + word + "'.", ["Ask another topic", "Top news", "Weather"])
  }

  /** The capitalised word and its first definition; for a word without a
      colon, both can be read back from it. */
  function DefinitionReport(word: string, meanings: seq<Definitions>): (r: string)
    ensures ':' !in word ==> ReportedWord(r) == Some(Capitalize(word))
    ensures ':' !in word ==> ReportedDefinition(r) == Some(FirstDefinition(meanings))
  {
    CapitalizeKeepsNoColon(word);
    WordReadBack(Capitalize(word), FirstDefinition(meanings));
    Capitalize(word) + ": " + FirstDefinition(meanings)
  }

  /** Capitalising changes letters only, so it adds no colon. */
  lemma CapitalizeKeepsNoColon(word: string)
    ensures ':' !in word ==> ':' !in Capitalize(word)
  {
    var head := Capitalize(word);
    if ':' !in word {
      forall x | 0 <= x < |head| ensures head[x] != ':' {
        assert word[x] in word;
      }
    }
  }

  /** A colon-free headword and the text after it are read back from any
      text of the report's shape. */
  lemma WordReadBack(head: string, definition: string)
    ensures ':' !in head ==> ReportedWord(head + ": " + definition) == Some(head)
    ensures ':' !in head ==> ReportedDefinition(head + ": " + definition) == Some(definition)
  {
    if ':' !in head {
      var s := head + ": " + definition;
      assert s[..|head|] == head && s[|head|] == ':' && s[|head| + 2..] == definition;
      FirstSeparator(s, 0, head, ':');
    }
  }

  /** `get_dictionary_response`: there is no key to check; the word is the
      extracted one or the default. */
  function DictionaryAnswer(question: string, fetch: string -> Reply<seq<Definitions>>): (r: Envelope)
    ensures var reply := fetch(DictionaryWord(question));
      r.ok <==> reply.Replied? && reply.status == 200 && reply.body.Some?
    ensures fetch(DictionaryWord(question)).Raised? ==> r == DictionaryTimeout
    ensures var reply := fetch(DictionaryWord(question));
      reply.Replied? && reply.status == 200 && reply.body.None? ==> r == DictionaryTimeout
    ensures var reply := fetch(DictionaryWord(question));
      reply.Replied? && reply.status != 200 ==> r == DefinitionMissing(DictionaryWord(question))
    ensures var reply := fetch(DictionaryWord(question));
      r.ok ==> r.answer == DefinitionReport(DictionaryWord(question), reply.body.value)
    ensures r.answer != []
    ensures |r.suggestions| == 3
  {
    var word := DictionaryWord(question);
    match Assess(true, true, (_: seq<Definitions>) => true, fetch(word))
    case Failed(TimedOut) => DictionaryTimeout
    case Failed(_) => DefinitionMissing(word)
    case Fetched(meanings) =>
      Envelope(true, DefinitionReport(word, meanings), ["Ask another topic", "Synonyms", "Top news"])
  }

  /** The headword of a definition report, read back as the text before
      the first colon. */
  function ReportedWord(answer: string): (r: Option<string>)
  {
    match IndexFrom(answer, ":", 0)
    case None => None
    case Some(k) => Some(answer[..k])
  }

  /** The definition of a definition report, read back as the text after
      the first colon and the space that follows it. */
  function ReportedDefinition(answer: string): (r: Option<string>)
  {
    match IndexFrom(answer, ":", 0)
    case None => None
    case Some(k) => if k + 2 <= |answer| then Some(answer[k + 2..]) else None
  }

  lemma DefaultWordHasNoColon()
    ensures ':' !in DefaultWord
  {
  }

  /** A definition report is headed by the capitalised word that was looked
      up, whatever the definition says. */
  lemma DefinitionReportNamesWord(question: string, meanings: seq<Definitions>)
    ensures ReportedWord(DefinitionReport(DictionaryWord(question), meanings))
      == Some(Capitalize(DictionaryWord(question)))
  {
    DefaultWordHasNoColon();
    assert ':' !in DictionaryWord(question);
  }

  /** After the headword, a definition report carries the first definition
      of the first meaning, or the fixed line when there is none, whatever
      the word. */
  lemma DefinitionReportGivesDefinition(question: string, meanings: seq<Definitions>)
    ensures ReportedDefinition(DefinitionReport(DictionaryWord(question), meanings))
      == Some(if meanings == [] || meanings[0] == [] then NoDefinition else Show(meanings[0][0]))
  {
    DefaultWordHasNoColon();
    assert ':' !in DictionaryWord(question);
  }

  // ---------------------------------------------------------------------
  // Chat completion fallback

  const LlmNotConfigured: Envelope :=
    Envelope(false, "AI not configured. Missing OPENAI_API_KEY.", ["Help", "Ask another topic", "Top news"])
  const LlmFailed: Envelope :=
    Envelope(false, "AI assistant couldn\U{2019}t answer right now.", ["Help", "Product demo", "Ask another topic"])

  /** `get_openai_response`: the completion's content, stripped, with a
      missing content read as the empty string. */
  function LlmAnswer(question: string, configured: bool, complete: string -> Completion): (r: Envelope)
    ensures !configured ==> r == LlmNotConfigured
    ensures r.ok <==> configured && complete(question).Completed?
    ensures configured && complete(question).Errored? ==> r == LlmFailed
    ensures r.ok ==> r.answer == Strip(complete(question).content.GetOr(""))
    ensures |r.suggestions| == 3
  {
    if !configured then LlmNotConfigured
    else match complete(question)
      case Errored => LlmFailed
      case Completed(content) =>
        Envelope(true, Strip(content.GetOr("")), ["Ask another topic", "Product demo", "Help"])
  }

  /** A successful fallback answer carries no surrounding white space, and
      it is empty when the completion had no content or only white space. */
  lemma LlmAnswerIsStripped(question: string, configured: bool, complete: string -> Completion)
    requires LlmAnswer(question, configured, complete).ok
    ensures var a := LlmAnswer(question, configured, complete).answer;
      && Strip(a) == a
      && (a == [] <==> IsBlank(complete(question).content.GetOr("")))
  {
    StripIdempotent(complete(question).content.GetOr(""));
  }

  // ---------------------------------------------------------------------
  // Shared properties

  lemma WeatherTimeoutSaysTimeout()
    ensures Occurs(WeatherTimeout.answer, "timeout")
  {
    var a := WeatherTimeout.answer;
    assert a == "Weather service timeout. Try again." && a[16..23] == "timeout";
    StartsAtIsSlice(a, 16, "timeout");
  }

  lemma StocksTimeoutSaysTimeout()
    ensures Occurs(StocksTimeout.answer, "timeout")
  {
    var a := StocksTimeout.answer;
    assert a == "Stock service timeout. Try again." && a[14..21] == "timeout";
    StartsAtIsSlice(a, 14, "timeout");
  }

  lemma NewsTimeoutSaysTimeout()
    ensures Occurs(NewsTimeout.answer, "timeout")
  {
    var a := NewsTimeout.answer;
    assert a == "News service timeout. Try again." && a[13..20] == "timeout";
    StartsAtIsSlice(a, 13, "timeout");
  }

  lemma DictionaryTimeoutSaysTimeout()
    ensures Occurs(DictionaryTimeout.answer, "timeout")
  {
    var a := DictionaryTimeout.answer;
    assert a == "Dictionary service timeout. Try again." && a[19..26] == "timeout";
    StartsAtIsSlice(a, 19, "timeout");
  }
}

=== FILE: extractor_examples.dfy ===
/** Worked examples of the backtracking the extractors inherit from Python's
    `re`, each computed from the scanning functions. */
module ExtractorExamples {

  import opened Options
  import opened Text
  import opened Scan
  import opened Extractors

  /** The ticker is the upper-cased group of whatever `Search` reports. */
  lemma TickerFromSearch(text: string, t: string, m: Match)
    requires t == Lower(text) && Search(TickerPattern, t, 0) == Some(m)
    ensures m.start <= m.end <= |t| && ExtractTicker(text) == Upper(t[m.start..m.end])
  {
    PatternsOk();
    ValidAtRun(TickerPattern, t, m.at, m.start, m.end);
  }

  /** The word is the group of whatever `Search` reports. */
  lemma WordFromSearch(text: string, t: string, m: Match)
    requires t == Lower(text) && Search(WordPattern, t, 0) == Some(m)
    ensures m.start <= m.end <= |t| && ExtractWord(text) == Some(t[m.start..m.end])
  {
    PatternsOk();
    ValidAtRun(WordPattern, t, m.at, m.start, m.end);
  }

  /** The match at an index is its head's link's capture. */
  lemma MatchViaHead(p: Pattern, t: string, i: nat, h: nat)
    requires PatternOk(p) && HeadAt(p.heads, t, i) == Some(h)
    ensures MatchAt(p, t, i) == LinkedCapture(t, i + |p.heads[h].0|, p.heads[h].1, p.chars, p.bound)
  {
  }

  /** A match at the first index is the one `Search` reports. */
  lemma SearchAtStart(p: Pattern, t: string, j: nat, e: nat)
    requires PatternOk(p) && MatchAt(p, t, 0) == Some((j, e))
    ensures Search(p, t, 0) == Some(Match(0, j, e))
  {
  }

  // "stock price of x"

  lemma StockPriceOfXIsLowerCase()
    ensures Lower("stock price of x") == "stock price of x"
  {
    LowerOfLowerCase("stock price of x");
  }

  lemma StockPriceOfXHead()
    ensures HeadAt(TickerPattern.heads, "stock price of x", 0) == Some(0)
  {
    assert TickerPattern.heads[0] == ("stock", OptionalWord("of"));
  }

  lemma StockPriceOfXRuns()
    ensures RunEnd("stock price of x", 5, Whitespace) == 6
    ensures RunEnd("stock price of x", 6, TickerChar) == 11
    ensures !StartsAt("stock price of x", 6, "of")
  {
  }

  lemma StockPriceOfXLinked()
    ensures LinkedCapture("stock price of x", 5, OptionalWord("of"), TickerChar, AtMost(10)) == Some((6, 11))
  {
    StockPriceOfXRuns();
  }

  lemma StockPriceOfXMatch()
    ensures Search(TickerPattern, "stock price of x", 0) == Some(Match(0, 6, 11))
  {
    PatternsOk();
    StockPriceOfXHead();
    MatchViaHead(TickerPattern, "stock price of x", 0, 0);
    assert TickerPattern.heads[0] == ("stock", OptionalWord("of"));
    StockPriceOfXLinked();
    SearchAtStart(TickerPattern, "stock price of x", 6, 11);
  }

  lemma UpperPrice()
    ensures Upper("stock price of x"[6..11]) == "PRICE"
  {
  }

  /** "of" is optional and "price" is a ticker-shaped word, so the ticker of
      "stock price of x" is "PRICE", not "X". */
  lemma TickerOfStockPriceOfX()
    ensures ExtractTicker("stock price of x") == "PRICE"
  {
    StockPriceOfXIsLowerCase();
    StockPriceOfXMatch();
    UpperPrice();
    TickerFromSearch("stock price of x", "stock price of x", Match(0, 6, 11));
  }

  // "price of AAPL"

  lemma PriceOfAaplLowered()
    ensures Lower("price of AAPL") == "price of aapl"
  {
  }

  lemma PriceOfAaplHead()
    ensures HeadAt(TickerPattern.heads, "price of aapl", 0) == Some(1)
  {
    assert TickerPattern.heads[0] == ("stock", OptionalWord("of"));
    assert TickerPattern.heads[1] == ("price", OptionalWord("of"));
  }

  lemma PriceOfAaplRuns()
    ensures RunEnd("price of aapl", 5, Whitespace) == 6
    ensures StartsAt("price of aapl", 6, "of")
    ensures RunEnd("price of aapl", 8, Whitespace) == 9
    ensures RunEnd("price of aapl", 9, TickerChar) == 13
  {
  }

  lemma PriceOfAaplLinked()
    ensures LinkedCapture("price of aapl", 5, OptionalWord("of"), TickerChar, AtMost(10)) == Some((9, 13))
  {
    PriceOfAaplRuns();
  }

  lemma PriceOfAaplMatch()
    ensures Search(TickerPattern, "price of aapl", 0) == Some(Match(0, 9, 13))
  {
    PatternsOk();
    PriceOfAaplHead();
    MatchViaHead(TickerPattern, "price of aapl", 0, 1);
    assert TickerPattern.heads[1] == ("price", OptionalWord("of"));
    PriceOfAaplLinked();
    SearchAtStart(TickerPattern, "price of aapl", 9, 13);
  }

  lemma UpperAapl()
    ensures Upper("price of aapl"[9..13]) == "AAPL"
  {
  }

  /** "price of AAPL" yields "AAPL": the optional "of" is taken when it can be. */
  lemma TickerOfPriceOfAapl()
    ensures ExtractTicker("price of AAPL") == "AAPL"
  {
    PriceOfAaplLowered();
    PriceOfAaplMatch();
    UpperAapl();
    TickerFromSearch("price of AAPL", "price of aapl", Match(0, 9, 13));
  }

  // "weather in  "

  lemma WeatherInBlankRuns()
    ensures StartsAt("weather in  ", 0, "weather")
    ensures RunEnd("weather in  ", 7, Whitespace) == 8
    ensures StartsAt("weather in  ", 8, "in")
    ensures RunEnd("weather in  ", 10, Whitespace) == 12
    ensures RunEnd("weather in  ", 11, CityChar) == 12
  {
  }

  lemma WeatherInBlankLinked()
    ensures LinkedCapture("weather in  ", 7, RequiredWord("in"), CityChar, Unbounded) == Some((11, 12))
  {
    WeatherInBlankRuns();
  }

  lemma WeatherInBlankSpan()
    ensures CitySpan("weather in  ") == Some((11, 12))
  {
    var t := "weather in  ";
    PatternsOk();
    WeatherInBlankRuns();
    assert CityPattern.heads[0] == ("weather", RequiredWord("in"));
    assert HeadAt(CityPattern.heads, t, 0) == Some(0);
    MatchViaHead(CityPattern, t, 0, 0);
    WeatherInBlankLinked();
  }

  lemma StripOneSpace()
    ensures Title(Strip("weather in  "[11..12])) == ""
  {
    assert "weather in  "[11..12] == " ";
  }

  /** After "weather in" and two spaces, the group backtracks to the last
      space alone: it is truthy, and stripping it leaves an empty city. */
  lemma CityOfWeatherInBlank()
    ensures ExtractCity("weather in  ") == ""
  {
    LowerOfLowerCase("weather in  ");
    WeatherInBlankSpan();
    StripOneSpace();
  }

  // "weather weather in paris"

  lemma FirstWeatherHead()
    ensures StartsAt("weather weather in paris", 0, "weather")
  {
  }

  lemma FirstWeatherGap()
    ensures RunEnd("weather weather in paris", 7, Whitespace) == 8
    ensures !StartsAt("weather weather in paris", 8, "in")
  {
  }

  lemma FirstWeatherTailFails()
    ensures MatchAt(CityPattern, "weather weather in paris", 0) == None
  {
    var t := "weather weather in paris";
    PatternsOk();
    FirstWeatherHead();
    FirstWeatherGap();
    assert CityPattern.heads[0] == ("weather", RequiredWord("in"));
    assert HeadAt(CityPattern.heads, t, 0) == Some(0);
    MatchViaHead(CityPattern, t, 0, 0);
  }

  lemma FirstWeatherHasNoTail()
    ensures CitySpan("weather weather in paris") == None
  {
    FirstWeatherTailFails();
    FirstWeatherHead();
  }

  /** The search stops at the first "weather" even when its tail fails and a
      later "weather in paris" would match. */
  lemma CityStopsAtFirstWeather()
    ensures ExtractCity("weather weather in paris") == DefaultCity
  {
    LowerOfLowerCase("weather weather in paris");
    FirstWeatherHasNoTail();
  }

  // "meaning of 42"

  lemma MeaningOf42Head()
    ensures HeadAt(WordPattern.heads, "meaning of 42", 0) == Some(1)
  {
    var t := "meaning of 42";
    assert !StartsAt(t, 0, "define") by {
      assert t[0] != 'd';
    }
    assert StartsAt(t, 0, "meaning") by {
      StartsAtIsSlice(t, 0, "meaning");
    }
    assert WordPattern.heads[0] == ("define", Spaces);
    assert WordPattern.heads[1] == ("meaning", OptionalWord("of"));
  }

  lemma MeaningOf42Runs()
    ensures RunEnd("meaning of 42", 7, Whitespace) == 8
    ensures StartsAt("meaning of 42", 8, "of")
    ensures RunEnd("meaning of 42", 10, Whitespace) == 11
    ensures RunEnd("meaning of 42", 8, WordChar) == 10
  {
  }

  lemma MeaningOf42Linked()
    ensures LinkedCapture("meaning of 42", 7, OptionalWord("of"), WordChar, Unbounded) == Some((8, 10))
  {
    MeaningOf42Runs();
  }

  lemma MeaningOf42Match()
    ensures Search(WordPattern, "meaning of 42", 0) == Some(Match(0, 8, 10))
  {
    PatternsOk();
    MeaningOf42Head();
    MatchViaHead(WordPattern, "meaning of 42", 0, 1);
    assert WordPattern.heads[1] == ("meaning", OptionalWord("of"));
    MeaningOf42Linked();
    SearchAtStart(WordPattern, "meaning of 42", 8, 10);
  }

  /** When no word follows "meaning of", the "of" itself becomes the word. */
  lemma MeaningOf42Text()
    ensures Lower("meaning of 42") == "meaning of 42"
    ensures "meaning of 42"[8..10] == "of"
  {
    LowerOfLowerCase("meaning of 42");
  }

  lemma WordOfMeaningOf42()
    ensures ExtractWord("meaning of 42") == Some("of")
  {
    MeaningOf42Text();
    MeaningOf42Match();
    WordFromSearch("meaning of 42", "meaning of 42", Match(0, 8, 10));
  }
}

=== FILE: extractors.dfy ===
/** The parameter extractors of app.py: the city of a weather question, the
    ticker of a stock question and the word of a dictionary question, each a
    `re.search` over the lower-cased question with a fixed default. */
module Extractors {

  import opened Options
  import opened Text
  import opened Scan

  const DefaultCity: string := "Tiruchirappalli"
  const DefaultTicker: string := "TSLA"
  /** The word the dictionary adapter looks up when none is found. */
  const DefaultWord: string := "innovation"

  /** `weather(?:\s+in\s+([a-zA-Z\s]+))?`, read as the head "weather" and its
      optional tail; the tail is what this pattern describes. */
  const CityPattern: Pattern := Pattern([("weather", RequiredWord("in"))], CityChar, Unbounded)

  /** `(?:stock|price)\s+(?:of\s+)?([A-Za-z\.:-]{1,10})` */
  const TickerPattern: Pattern :=
    Pattern([("stock", OptionalWord("of")), ("price", OptionalWord("of"))], TickerChar, AtMost(10))

  /** `(?:define|meaning(?:\s+of)?)\s+([a-zA-Z\-]+)` */
  const WordPattern: Pattern :=
    Pattern([("define", Spaces), ("meaning", OptionalWord("of"))], WordChar, Unbounded)

  lemma PatternsOk()
    ensures PatternOk(CityPattern) && PatternOk(TickerPattern) && PatternOk(WordPattern)
  {
  }

  // ---------------------------------------------------------------------
  // City

  /** The group Python reports for the city pattern: the tail after the
      leftmost "weather" is optional, so the search always stops there, and
      the group is the best tail match at that index, if it has one. */
  ghost predicate CityGroup(t: string, j: nat, e: nat)
  {
    && j < e <= |t|
    && exists i: nat :: StartsAt(t, i, "weather")
         && (forall i': nat :: i' < i ==> !StartsAt(t, i', "weather"))
         && BestAt(CityPattern, t, i, j, e)
  }

  /** The span of the city group in the lower-cased text, if there is one. */
  function CitySpan(t: string): (r: Option<(nat, nat)>)
    ensures r.None? ==> forall j: nat, e: nat :: !CityGroup(t, j, e)
    ensures r.Some? ==> CityGroup(t, r.value.0, r.value.1)
    ensures r.Some? ==> AllIn(t, r.value.0, r.value.1, CityChar)
    ensures !Occurs(t, "weather") ==> r.None?
  {
    PatternsOk();
    match IndexFrom(t, "weather", 0)
    case None => None
    case Some(i) =>
      CityGroupAt(t, i);
      match MatchAt(CityPattern, t, i)
      case None => None
      case Some((j, e)) =>
        ValidAtRun(CityPattern, t, i, j, e);
        Some((j, e))
  }

  /** `extract_city`: the stripped, title-cased group, or the default city
      when there is no "weather" or nothing after it forms the group. A group
      of white space alone is truthy, so the city can come out empty. */
  function ExtractCity(text: string): (r: string)
    ensures var t := Lower(text);
      !Occurs(t, "weather") ==> r == DefaultCity
    ensures var t := Lower(text);
      (forall j: nat, e: nat :: !CityGroup(t, j, e)) ==> r == DefaultCity
    ensures var t := Lower(text);
      forall j: nat, e: nat :: CityGroup(t, j, e) ==> r == Title(Strip(t[j..e]))
    ensures r == DefaultCity
      || ((forall c :: c in r ==> IsLetter(c) || IsSpace(c))
          && (r != [] ==> !IsSpace(r[0]) && !IsSpace(r[|r| - 1])))
  {
    var t := Lower(text);
    match CitySpan(t)
    case None => DefaultCity
    case Some((j, e)) =>
      CityGroupUnique(t, j, e);
      CityRunStripped(t, j, e);
      Title(Strip(t[j..e]))
  }

  lemma CityGroupUnique(t: string, j: nat, e: nat)
    requires CityGroup(t, j, e)
    ensures forall j': nat, e': nat :: CityGroup(t, j', e') ==> j' == j && e' == e
  {
    var i: nat :| StartsAt(t, i, "weather")
      && (forall i': nat :: i' < i ==> !StartsAt(t, i', "weather"))
      && BestAt(CityPattern, t, i, j, e);
    CityGroupAt(t, i);
    forall j': nat, e': nat | CityGroup(t, j', e')
      ensures j' == j && e' == e
    {
      BestAtUnique(CityPattern, t, i, j, e, j', e');
    }
  }

  lemma CityRunStripped(t: string, j: nat, e: nat)
    requires j <= e <= |t| && AllIn(t, j, e, CityChar)
    ensures var r := Title(Strip(t[j..e]));
      && (forall c :: c in r ==> IsLetter(c) || IsSpace(c))
      && (r != [] ==> !IsSpace(r[0]) && !IsSpace(r[|r| - 1]))
  {
    var s := Strip(t[j..e]);
    forall c | c in s
      ensures IsLetter(c) || IsSpace(c)
    {
      var x :| 0 <= x < |s| && s[x] == c;
      var a := RunEnd(t[j..e], 0, Whitespace);
      assert c == t[j..e][a + x] == t[j + a + x];
    }
    TitleOfCityRun(s);
  }

  /** When the leftmost "weather" is at `i`, the city groups are exactly the
      best tail matches at `i`. */
  lemma CityGroupAt(t: string, i: nat)
    requires StartsAt(t, i, "weather") && forall i': nat :: i' < i ==> !StartsAt(t, i', "weather")
    ensures forall j: nat, e: nat :: CityGroup(t, j, e) <==> BestAt(CityPattern, t, i, j, e)
  {
    forall j: nat, e: nat | CityGroup(t, j, e)
      ensures BestAt(CityPattern, t, i, j, e)
    {
      var i0: nat :| StartsAt(t, i0, "weather")
        && (forall i': nat :: i' < i0 ==> !StartsAt(t, i', "weather"))
        && BestAt(CityPattern, t, i0, j, e);
      assert !(i0 < i) && !(i < i0);
    }
  }

  lemma TitleOfCityRun(s: string)
    requires forall c :: c in s ==> IsLetter(c) || IsSpace(c)
    requires s != [] ==> !IsSpace(s[0]) && !IsSpace(s[|s| - 1])
    ensures var r := Title(s);
      && (forall c :: c in r ==> IsLetter(c) || IsSpace(c))
      && (r != [] ==> !IsSpace(r[0]) && !IsSpace(r[|r| - 1]))
  {
    TitleIsTitleCased(s);
    var r := Title(s);
    forall x | 0 <= x < |r|
      ensures (IsLetter(r[x]) || IsSpace(r[x])) && (IsSpace(r[x]) <==> IsSpace(s[x]))
    {
      assert s[x] in s;
      if IsLetter(s[x]) {
        if x == 0 || !IsLetter(s[x - 1]) {
          assert r[x] == ToUpper(s[x]);
        } else {
          assert r[x] == ToLower(s[x]);
        }
      }
    }
  }

  // ---------------------------------------------------------------------
  // Ticker

  /** `extract_ticker`: the upper-cased group of the leftmost match, or the
      default ticker when the pattern matches nowhere. */
  function ExtractTicker(text: string): (r: string)
    ensures var t := Lower(text);
      NoMatch(TickerPattern, t) ==> r == DefaultTicker
    ensures var t := Lower(text);
      forall i: nat, j: nat, e: nat :: Leftmost(TickerPattern, t, i, j, e) ==> r == Upper(t[j..e])
    ensures 1 <= |r| <= 10
    ensures forall c :: c in r ==> IsUpper(c) || c == '.' || c == ':' || c == '-'
  {
    var t := Lower(text);
    PatternsOk();
    SearchIsLeftmost(TickerPattern, t);
    SearchDecidesAll(TickerPattern, t);
    match Search(TickerPattern, t, 0)
    case None => DefaultTicker
    case Some(m) =>
      ValidAtRun(TickerPattern, t, m.at, m.start, m.end);
      UpperOfLowerRun(t, m.start, m.end);
      Upper(t[m.start..m.end])
  }

  lemma UpperOfLowerRun(t: string, j: nat, e: nat)
    requires j <= e <= |t|
    requires forall x :: 0 <= x < |t| ==> !IsUpper(t[x])
    requires AllIn(t, j, e, TickerChar)
    ensures forall c :: c in Upper(t[j..e]) ==> IsUpper(c) || c == '.' || c == ':' || c == '-'
  {
    var r := Upper(t[j..e]);
    forall x | 0 <= x < |r|
      ensures IsUpper(r[x]) || r[x] == '.' || r[x] == ':' || r[x] == '-'
    {
      assert r[x] == ToUpper(t[j + x]);
    }
  }

  // ---------------------------------------------------------------------
  // Word

  /** `extract_word`: the group of the leftmost match, still lower-case, or
      nothing when the pattern matches nowhere. */
  function ExtractWord(text: string): (r: Option<string>)
    ensures var t := Lower(text);
      r.None? <==> NoMatch(WordPattern, t)
    ensures var t := Lower(text);
      forall i: nat, j: nat, e: nat :: Leftmost(WordPattern, t, i, j, e) ==> r == Some(t[j..e])
    ensures r.Some? ==> r.value != [] && forall c :: c in r.value ==> IsLower(c) || c == '-'
  {
    var t := Lower(text);
    PatternsOk();
    SearchIsLeftmost(WordPattern, t);
    SearchDecidesAll(WordPattern, t);
    match Search(WordPattern, t, 0)
    case None => None
    case Some(m) =>
      ValidAtRun(WordPattern, t, m.at, m.start, m.end);
      LowerWordRun(t, m.start, m.end);
      Some(t[m.start..m.end])
  }

  lemma LowerWordRun(t: string, j: nat, e: nat)
    requires j < e <= |t|
    requires forall x :: 0 <= x < |t| ==> !IsUpper(t[x])
    requires AllIn(t, j, e, WordChar)
    ensures t[j..e] != [] && forall c :: c in t[j..e] ==> IsLower(c) || c == '-'
  {
    forall x | j <= x < e
      ensures IsLower(t[x]) || t[x] == '-'
    {
      assert InClass(t[x], WordChar);
    }
  }

  /** `extract_word(question) or "innovation"`: the group is never empty, so
      only a missing match falls back to the default. */
  function DictionaryWord(text: string): (r: string)
    ensures ExtractWord(text).Some? ==> r == ExtractWord(text).value
    ensures ExtractWord(text).None? ==> r == DefaultWord
    ensures r != []
  {
    ExtractWord(text).GetOr(DefaultWord)
  }
}

=== FILE: intents.dfy ===
/** The keyword classifier that decides which service answers a question
    (`detect_intent` in app.py). */
module Intents {

  import opened Options
  import opened Text

  datatype Intent = Weather | Stock | News | Dictionary | Kb

  const WeatherKeywords: seq<string> := ["weather", "temperature", "forecast"]
  const StockKeywords: seq<string> := ["stock", "share price", "price", "ticker"]
  const NewsKeywords: seq<string> := ["news", "headline", "trending"]
  const DictionaryKeywords: seq<string> := ["define", "meaning", "synonym", "antonym"]

  /** The classifier's rules, in the order they are tried. */
  const Rules: seq<(seq<string>, Intent)> := [
    (WeatherKeywords, Weather),
    (StockKeywords, Stock),
    (NewsKeywords, News),
    (DictionaryKeywords, Dictionary)
  ]

  /** Some keyword of `ks` occurs in `t` (as a substring, not as a word). */
  ghost predicate Mentions(t: string, ks: seq<string>)
  {
    exists n: nat, i: nat :: n < |ks| && StartsAt(t, i, ks[n])
  }

  /** Python's `any(k in t for k in ks)`. */
  function MentionsAny(t: string, ks: seq<string>): (r: bool)
    ensures r <==> Mentions(t, ks)
  {
    if ks == [] then false
    else
      MentionsFirstOrRest(t, ks);
      Contains(t, ks[0]) || MentionsAny(t, ks[1..])
  }

  lemma MentionsFirstOrRest(t: string, ks: seq<string>)
    requires ks != []
    ensures Mentions(t, ks) <==> Occurs(t, ks[0]) || Mentions(t, ks[1..])
  {
    if Mentions(t, ks) {
      var n: nat, i: nat :| n < |ks| && StartsAt(t, i, ks[n]);
      if n > 0 {
        assert ks[1..][n - 1] == ks[n];
      }
    }
    if Mentions(t, ks[1..]) {
      var n: nat, i: nat :| n < |ks[1..]| && StartsAt(t, i, ks[1..][n]);
      assert ks[n + 1] == ks[1..][n];
    }
  }

  /** The first rule at or after `from` whose keywords `t` mentions. */
  function FirstRule(t: string, rules: seq<(seq<string>, Intent)>, from: nat): (r: Option<nat>)
    requires from <= |rules|
    ensures r.Some? ==> from <= r.value < |rules| && Mentions(t, rules[r.value].0)
    ensures r.Some? ==> forall n :: from <= n < r.value ==> !Mentions(t, rules[n].0)
    ensures r.None? ==> forall n :: from <= n < |rules| ==> !Mentions(t, rules[n].0)
    decreases |rules| - from
  {
    if from == |rules| then None
    else if MentionsAny(t, rules[from].0) then Some(from)
    else FirstRule(t, rules, from + 1)
  }

  /** `detect_intent`: the lower-cased text is checked against the weather,
      stock, news and dictionary keywords in that order; the first list with
      a hit decides, and a text with no hit goes to the knowledge base. */
  function Classify(text: string): (r: Intent)
    ensures var t := Lower(text);
      && (r == Weather <==> Mentions(t, WeatherKeywords))
      && (r == Stock <==> !Mentions(t, WeatherKeywords) && Mentions(t, StockKeywords))
      && (r == News <==> !Mentions(t, WeatherKeywords) && !Mentions(t, StockKeywords)
                         && Mentions(t, NewsKeywords))
      && (r == Dictionary <==> !Mentions(t, WeatherKeywords) && !Mentions(t, StockKeywords)
                               && !Mentions(t, NewsKeywords) && Mentions(t, DictionaryKeywords))
      && (r == Kb <==> !Mentions(t, WeatherKeywords) && !Mentions(t, StockKeywords)
                       && !Mentions(t, NewsKeywords) && !Mentions(t, DictionaryKeywords))
  {
    var t := Lower(text);
    assert Rules[0].0 == WeatherKeywords && Rules[1].0 == StockKeywords;
    assert Rules[2].0 == NewsKeywords && Rules[3].0 == DictionaryKeywords;
    match FirstRule(t, Rules, 0)
    case None => Kb
    case Some(n) => Rules[n].1
  }

  /** Case does not matter to the classifier. */
  lemma ClassifyIgnoresCase(text: string)
    ensures Classify(Lower(text)) == Classify(text)
  {
    LowerIdempotent(text);
  }

  /** The empty question goes to the knowledge base. */
  lemma ClassifyEmpty()
    ensures Classify("") == Kb
  {
  }

  /** No keyword of `ks` occurs in `t` when the substring test fails for each. */
  lemma MentionsNone(t: string, ks: seq<string>)
    requires forall n :: 0 <= n < |ks| ==> !Contains(t, ks[n])
    ensures !Mentions(t, ks)
  {
  }

  lemma NewsletterHasNoWeatherKeyword()
    ensures !Mentions("newsletter", WeatherKeywords)
  {
    var t := "newsletter";
    assert !Contains(t, "weather") && !Contains(t, "temperature") && !Contains(t, "forecast");
    MentionsNone(t, WeatherKeywords);
  }

  lemma NewsletterHasNoStockKeyword()
    ensures !Mentions("newsletter", StockKeywords)
  {
    var t := "newsletter";
    assert !Contains(t, "stock") && !Contains(t, "share price");
    assert !Contains(t, "price") && !Contains(t, "ticker");
    MentionsNone(t, StockKeywords);
  }

  /** Keywords are matched inside words: "newsletter" contains "news". */
  lemma ClassifyNewsletter()
    ensures Classify("newsletter") == News
  {
    NewsletterHasNoWeatherKeyword();
    NewsletterHasNoStockKeyword();
    assert NewsKeywords[0] == "news" && StartsAt("newsletter", 0, "news");
    assert Lower("newsletter") == "newsletter";
  }

  /** A text that contains "weather" anywhere is a weather question, whatever
      other keywords it holds. */
  lemma WeatherWins(text: string, i: nat)
    requires StartsAt(Lower(text), i, "weather")
    ensures Classify(text) == Weather
  {
    assert WeatherKeywords[0] == "weather";
  }

  lemma WeatherAndStockText()
    ensures Lower("weather and stock price") == "weather and stock price"
    ensures StartsAt("weather and stock price", 0, "weather")
    ensures StartsAt("weather and stock price", 12, "stock")
  {
    var t := "weather and stock price";
    LowerOfLowerCase(t);
    assert t[..7] == "weather" && t[12..17] == "stock";
    StartsAtIsSlice(t, 0, "weather");
    StartsAtIsSlice(t, 12, "stock");
  }

  /** Weather keywords win over stock keywords. */
  lemma ClassifyWeatherBeforeStock()
    ensures Mentions("weather and stock price", StockKeywords)
    ensures Classify("weather and stock price") == Weather
  {
    WeatherAndStockText();
    assert StockKeywords[0] == "stock";
    WeatherWins("weather and stock price", 0);
  }
}

=== FILE: knowledge.dfy ===
/** The static knowledge base and alias table of app.py, and the two
    lookups the request handler makes in them. */
module Knowledge {

  import opened Options
  import opened Text

  /** The knowledge base, in insertion order (a Python `dict` keeps it). */
  const KnowledgeBase: seq<(string, string)> := [
    ("photosynthesis", "Plants use sunlight, water, and carbon dioxide to produce glucose and oxygen."),
    ("gravity", "Gravity is a force that attracts two bodies toward each other."),
    ("equation", "An equation states that two expressions are equal, typically with an equals sign."),
    ("noun", "A noun names a person, place, thing, or idea.")
  ]

  /** Known phrasings, matched exactly, and the topic each stands for. */
  const Aliases: map<string, string> := map[
    "gravitation" := "gravity",
    "what is gravity" := "gravity",
    "define noun" := "noun",
    "photosynthesis definition" := "photosynthesis"
  ]

  /** The topic keys, in insertion order. */
  function Topics(): (r: seq<string>)
    ensures |r| == |KnowledgeBase| && forall n :: 0 <= n < |KnowledgeBase| ==> r[n] == KnowledgeBase[n].0
  {
    seq(|KnowledgeBase|, n requires 0 <= n < |KnowledgeBase| => KnowledgeBase[n].0)
  }

  ghost predicate IsTopic(key: string)
  {
    exists n :: 0 <= n < |KnowledgeBase| && KnowledgeBase[n].0 == key
  }

  /** The position of `key` among the topics at or after `from`. */
  function TopicIndex(key: string, from: nat): (r: Option<nat>)
    requires from <= |KnowledgeBase|
    ensures r.Some? ==> from <= r.value < |KnowledgeBase| && KnowledgeBase[r.value].0 == key
    ensures r.None? ==> forall n :: from <= n < |KnowledgeBase| ==> KnowledgeBase[n].0 != key
    decreases |KnowledgeBase| - from
  {
    if from == |KnowledgeBase| then None
    else if KnowledgeBase[from].0 == key then Some(from)
    else TopicIndex(key, from + 1)
  }

  /** `KB.get(key)`: the stored text of an exact topic key. */
  function Lookup(key: string): (r: Option<string>)
    ensures r.Some? <==> IsTopic(key)
    ensures r.Some? ==> exists n :: 0 <= n < |KnowledgeBase| && KnowledgeBase[n] == (key, r.value)
  {
    match TopicIndex(key, 0)
    case None => None
    case Some(n) => Some(KnowledgeBase[n].1)
  }

  /** The first topic, in insertion order, at or after `from` that occurs
      inside `clean`. */
  function FirstTopicIn(clean: string, from: nat): (r: Option<nat>)
    requires from <= |KnowledgeBase|
    ensures r.Some? ==> from <= r.value < |KnowledgeBase| && Occurs(clean, KnowledgeBase[r.value].0)
    ensures r.Some? ==> forall n :: from <= n < r.value ==> !Occurs(clean, KnowledgeBase[n].0)
    ensures r.None? ==> forall n :: from <= n < |KnowledgeBase| ==> !Occurs(clean, KnowledgeBase[n].0)
    decreases |KnowledgeBase| - from
  {
    if from == |KnowledgeBase| then None
    else if Contains(clean, KnowledgeBase[from].0) then Some(from)
    else FirstTopicIn(clean, from + 1)
  }

  /** Alias resolution: only an exact match on the whole cleaned question
      is replaced by its topic. */
  function ResolveAlias(clean: string): (r: string)
    ensures clean in Aliases ==> r == Aliases[clean] && IsTopic(r)
    ensures clean !in Aliases ==> r == clean
  {
    AliasesNameTopics();
    if clean in Aliases then Aliases[clean] else clean
  }

  /** Every alias stands for a topic of the knowledge base. */
  lemma AliasesNameTopics()
    ensures forall a :: a in Aliases ==> IsTopic(Aliases[a])
  {
    assert KnowledgeBase[0].0 == "photosynthesis" && KnowledgeBase[1].0 == "gravity" && KnowledgeBase[3].0 == "noun";
  }

  /** Topic keys are already in the form questions are cleaned into:
      lower-case, stripped, and not themselves aliases. */
  lemma TopicsAreClean(key: string)
    requires IsTopic(key)
    ensures forall i :: 0 <= i < |key| ==> !IsUpper(key[i])
    ensures Strip(key) == key
    ensures key !in Aliases
  {
    var n :| 0 <= n < |KnowledgeBase| && KnowledgeBase[n].0 == key;
    assert n == 0 || n == 1 || n == 2 || n == 3;
    if n == 0 {
      LowerCaseWord("photosynthesis");
    } else if n == 1 {
      LowerCaseWord("gravity");
    } else if n == 2 {
      LowerCaseWord("equation");
    } else {
      LowerCaseWord("noun");
    }
  }

  /** An alias resolves to a clean topic. */
  lemma AliasTargetsAreClean(clean: string)
    ensures clean in Aliases ==>
      var key := Aliases[clean];
      && (forall i :: 0 <= i < |key| ==> !IsUpper(key[i]))
      && Strip(key) == key
      && key !in Aliases
  {
    if clean in Aliases {
      AliasesNameTopics();
      TopicsAreClean(Aliases[clean]);
    }
  }

  /** A word of lower-case letters is unchanged by cleaning. */
  lemma LowerCaseWord(w: string)
    requires w != [] && forall i :: 0 <= i < |w| ==> IsLower(w[i])
    ensures forall i :: 0 <= i < |w| ==> !IsUpper(w[i])
    ensures Strip(w) == w
  {
    StripOfStripped(w);
  }

  /** The topic keys are pairwise distinct, as keys of a `dict` are. */
  lemma TopicsDistinct()
    ensures forall n, m :: 0 <= n < m < |KnowledgeBase| ==> KnowledgeBase[n].0 != KnowledgeBase[m].0
  {
  }

  /** A key longer than the text cannot occur in it. */
  lemma TooLongToOccur(t: string, k: string)
    requires |t| < |k|
    ensures !Occurs(t, k)
  {
  }

  lemma PhotosynthesisLacksGravity()
    ensures !Occurs("photosynthesis", "gravity")
  {
    assert !Contains("photosynthesis", "gravity");
    ContainsIsOccurs("photosynthesis", "gravity");
  }

  lemma PhotosynthesisLacksEquation()
    ensures !Occurs("photosynthesis", "equation")
  {
    assert !Contains("photosynthesis", "equation");
    ContainsIsOccurs("photosynthesis", "equation");
  }

  lemma PhotosynthesisLacksNoun()
    ensures !Occurs("photosynthesis", "noun")
  {
    assert !Contains("photosynthesis", "noun");
    ContainsIsOccurs("photosynthesis", "noun");
  }

  lemma GravityLacksNoun()
    ensures !Occurs("gravity", "noun")
  {
    assert !Contains("gravity", "noun");
    ContainsIsOccurs("gravity", "noun");
  }

  lemma EquationLacksGravity()
    ensures !Occurs("equation", "gravity")
  {
    assert !Contains("equation", "gravity");
    ContainsIsOccurs("equation", "gravity");
  }

  lemma EquationLacksNoun()
    ensures !Occurs("equation", "noun")
  {
    assert !Contains("equation", "noun");
    ContainsIsOccurs("equation", "noun");
  }

  /** No topic key occurs inside another one. */
  lemma NoTopicInsideAnother()
    ensures forall n, m :: 0 <= n < |KnowledgeBase| && 0 <= m < |KnowledgeBase| && n != m ==> !Occurs(KnowledgeBase[m].0, KnowledgeBase[n].0)
  {
    assert KnowledgeBase[0].0 == "photosynthesis" && KnowledgeBase[1].0 == "gravity";
    assert KnowledgeBase[2].0 == "equation" && KnowledgeBase[3].0 == "noun";
    PhotosynthesisLacksGravity();
    PhotosynthesisLacksEquation();
    PhotosynthesisLacksNoun();
    GravityLacksNoun();
    EquationLacksGravity();
    EquationLacksNoun();
    TooLongToOccur("gravity", "photosynthesis");
    TooLongToOccur("gravity", "equation");
    TooLongToOccur("equation", "photosynthesis");
    TooLongToOccur("noun", "photosynthesis");
    TooLongToOccur("noun", "gravity");
    TooLongToOccur("noun", "equation");
  }

  /** Because no key occurs inside another, the exact lookup the handler
      tries first picks the same topic as the substring scan would. */
  lemma ExactHitIsFirstTopic(clean: string)
    requires IsTopic(clean)
    ensures FirstTopicIn(clean, 0) == TopicIndex(clean, 0)
  {
    var k :| 0 <= k < |KnowledgeBase| && KnowledgeBase[k].0 == clean;
    TopicsDistinct();
    NoTopicInsideAnother();
    assert StartsAt(clean, 0, KnowledgeBase[k].0) by { StartsAtIsSlice(clean, 0, KnowledgeBase[k].0); }
  }
}

=== FILE: options.dfy ===
/** The optional value used wherever the service has a Python `None`. */
module Options {

  datatype Option<+T> = None | Some(value: T) {

    /** The value, or `default` when there is none (Python's `x or default`
        for values that are never falsy when present). */
    function GetOr(default: T): (r: T)
      ensures Some? ==> r == value
      ensures None? ==> r == default
    {
      match this
      case Some(v) => v
      case None => default
    }
  }
}

=== FILE: router.dfy ===
/** The `/answer` handler of app.py: it picks one route for a question and
    builds the reply envelope from it. */
module Router {

  import opened Options
  import opened Text
  import opened Intents
  import opened Knowledge
  import opened Extractors
  import opened Adapters

  /** Where a question is sent. */
  datatype Route = Guidance | KbAnswer(key: string) | Adapter(intent: Intent) | LlmFallback

  /** The providers, as functions of the parameter each is called with. */
  datatype Services = Services(
    weather: string -> Reply<Conditions>,
    quote: string -> Reply<Quote>,
    headlines: Reply<seq<Option<string>>>,
    definitions: string -> Reply<seq<Definitions>>,
    complete: string -> Completion)

  const GuidanceEnvelope: Envelope :=
    Envelope(false, "Please ask a topic. For example: photosynthesis, gravity, equation, noun.",
             ["photosynthesis", "gravity", "equation", "noun"])

  const KbSuggestions: seq<string> := ["Ask another topic", "Product demo", "Help"]

  /** The question of the request, stripped; a missing or null field reads
      as the empty string. */
  function Question(field: Option<string>): (r: string)
    ensures r == [] <==> IsBlank(field.GetOr(""))
  {
    Strip(field.GetOr(""))
  }

  /** The key the knowledge base is looked up with: the question lower-cased
      and stripped, replaced by its topic when it is exactly an alias. */
  function Cleaned(question: string): (r: string)
    ensures forall i :: 0 <= i < |r| ==> !IsUpper(r[i])
    ensures Strip(r) == r
    ensures r !in Aliases
    ensures var s := Strip(Lower(question));
      (s in Aliases ==> r == Aliases[s]) && (s !in Aliases ==> r == s)
  {
    var s := Strip(Lower(question));
    StrippedLowerIsClean(question);
    AliasTargetsAreClean(s);
    ResolveAlias(s)
  }

  lemma StrippedLowerIsClean(question: string)
    ensures var s := Strip(Lower(question));
      && (forall i :: 0 <= i < |s| ==> !IsUpper(s[i]))
      && Strip(s) == s
  {
    var t := Lower(question);
    var s := Strip(t);
    StripIdempotent(t);
    var a := RunEnd(t, 0, Whitespace);
    forall i | 0 <= i < |s| ensures !IsUpper(s[i]) {
      assert s[i] == t[a + i];
    }
  }

  /** Cleaning is done in one step: a cleaned question cleans to itself, so
      an alias never resolves to another alias. */
  lemma CleanedIdempotent(question: string)
    ensures Cleaned(Cleaned(question)) == Cleaned(question)
  {
    LowerOfLowerCase(Cleaned(question));
  }

  /** The topic a cleaned question is answered with: the question itself if
      it is a topic, else the first topic, in insertion order, inside it. */
  ghost predicate ChosenTopic(clean: string, key: string)
  {
    if IsTopic(clean) then key == clean
    else exists n :: (0 <= n < |KnowledgeBase| && KnowledgeBase[n].0 == key && Occurs(clean, key)
                      && forall m :: 0 <= m < n ==> !Occurs(clean, KnowledgeBase[m].0))
  }

  /** No topic is the cleaned question or occurs inside it. */
  ghost predicate NoTopicFor(clean: string)
  {
    forall n :: 0 <= n < |KnowledgeBase| ==> !Occurs(clean, KnowledgeBase[n].0)
  }

  /** The knowledge-base step: an exact hit, else the first topic inside. */
  function TopicFor(clean: string): (r: Option<string>)
    ensures r.Some? ==> IsTopic(r.value) && ChosenTopic(clean, r.value)
    ensures r.None? <==> NoTopicFor(clean)
  {
    match TopicIndex(clean, 0)
    case Some(n) =>
      assert StartsAt(clean, 0, KnowledgeBase[n].0) by {
        StartsAtIsSlice(clean, 0, KnowledgeBase[n].0);
      }
      Some(KnowledgeBase[n].0)
    case None =>
      match FirstTopicIn(clean, 0)
      case Some(n) => Some(KnowledgeBase[n].0)
      case None => None
  }

  /** The route of a stripped question: guidance for the empty one; the
      intent is read off the question as asked, so an alias only matters
      when the question has no service keyword. */
  function RouteOf(question: string): (r: Route)
    ensures r == Guidance <==> question == []
    ensures r.Adapter? <==> question != [] && Classify(question) != Intent.Kb
    ensures r.Adapter? ==> r.intent == Classify(question)
    ensures r.KbAnswer? ==>
      (question != [] && Classify(question) == Intent.Kb
       && IsTopic(r.key) && ChosenTopic(Cleaned(question), r.key))
    ensures r == LlmFallback <==>
      (question != [] && Classify(question) == Intent.Kb && NoTopicFor(Cleaned(question)))
  {
    if question == [] then Guidance
    else
      var intent := Classify(question);
      if intent != Intent.Kb then Adapter(intent)
      else match TopicFor(Cleaned(question))
        case Some(key) => KbAnswer(key)
        case None => LlmFallback
  }

  /** The knowledge base's own answers are never empty. */
  lemma KnowledgeTextsNonEmpty()
    ensures forall n :: 0 <= n < |KnowledgeBase| ==> KnowledgeBase[n].1 != []
  {
  }

  /** The adapter a service intent is dispatched to. */
  function ServiceAnswer(intent: Intent, question: string, cfg: Config, services: Services): (r: Envelope)
    requires intent != Intent.Kb
    ensures r.answer != [] && |r.suggestions| == 3
    ensures intent == Weather ==> r == WeatherAnswer(question, cfg.weather, services.weather)
    ensures intent == Stock ==> r == StockAnswer(question, cfg.stocks, services.quote)
    ensures intent == News ==> r == NewsAnswer(cfg.news, services.headlines)
    ensures intent == Dictionary ==> r == DictionaryAnswer(question, services.definitions)
  {
    match intent
    case Weather => WeatherAnswer(question, cfg.weather, services.weather)
    case Stock => StockAnswer(question, cfg.stocks, services.quote)
    case News => NewsAnswer(cfg.news, services.headlines)
    case Dictionary => DictionaryAnswer(question, services.definitions)
  }

  /** Whether the key of the service an intent goes to is set; the
      dictionary service needs none. */
  predicate ServiceConfigured(intent: Intent, cfg: Config)
  {
    match intent
    case Weather => cfg.weather
    case Stock => cfg.stocks
    case News => cfg.news
    case Dictionary => true
    case Kb => false
  }

  /** Whether the provider call of a service intent raised, or came back
      with fields the adapter could not read (the stock adapter reads them
      whatever the status; the others only after a 200). */
  predicate CallTimedOut(intent: Intent, question: string, services: Services)
  {
    match intent
    case Weather =>
      var reply := services.weather(ExtractCity(question));
      reply.Raised? || (reply.status == 200 && reply.body.None?)
    case Stock =>
      var reply := services.quote(ExtractTicker(question));
      reply.Raised? || reply.body.None?
    case News =>
      var reply := services.headlines;
      reply.Raised? || (reply.status == 200 && reply.body.None?)
    case Dictionary =>
      var reply := services.definitions(DictionaryWord(question));
      reply.Raised? || (reply.status == 200 && reply.body.None?)
    case Kb => false
  }

  /** A configured service whose call times out, or whose reply cannot be
      read, answers with a failure that says "timeout". */
  lemma TimeoutsSayTimeout(intent: Intent, question: string, cfg: Config, services: Services)
    requires intent != Intent.Kb
    requires ServiceConfigured(intent, cfg) && CallTimedOut(intent, question, services)
    ensures var r := ServiceAnswer(intent, question, cfg, services);
      !r.ok && Occurs(r.answer, "timeout")
  {
    match intent
    case Weather => WeatherTimeoutSaysTimeout();
    case Stock => StocksTimeoutSaysTimeout();
    case News => NewsTimeoutSaysTimeout();
    case Dictionary => DictionaryTimeoutSaysTimeout();
  }

  /** `answer`: route the question, then answer from the knowledge base,
      with the guidance, or through exactly one adapter. */
  function Answer(field: Option<string>, cfg: Config, services: Services): (r: Envelope)
    ensures IsBlank(field.GetOr("")) ==> r == GuidanceEnvelope
    ensures var route := RouteOf(Question(field));
      route.KbAnswer? ==> r.ok && Lookup(route.key) == Some(r.answer) && r.suggestions == KbSuggestions
    ensures var route := RouteOf(Question(field));
      route.Adapter? ==> r == ServiceAnswer(route.intent, Question(field), cfg, services)
    ensures RouteOf(Question(field)) == LlmFallback ==> r == LlmAnswer(Question(field), cfg.llm, services.complete)
    ensures RouteOf(Question(field)) != LlmFallback ==> r.answer != []
    ensures 3 <= |r.suggestions| <= 4
  {
    var question := Question(field);
    match RouteOf(question)
    case Guidance => GuidanceEnvelope
    case KbAnswer(key) =>
      KnowledgeTextsNonEmpty();
      Envelope(true, Lookup(key).value, KbSuggestions)
    case LlmFallback => LlmAnswer(question, cfg.llm, services.complete)
    case Adapter(intent) => ServiceAnswer(intent, question, cfg, services)
  }

  /** The guidance offers exactly the topics, in their order. */
  lemma GuidanceOffersTopics()
    ensures GuidanceEnvelope.suggestions == Topics()
  {
    assert KnowledgeBase[0].0 == "photosynthesis" && KnowledgeBase[1].0 == "gravity";
    assert KnowledgeBase[2].0 == "equation" && KnowledgeBase[3].0 == "noun";
  }

  /** Guidance and knowledge-base answers do not depend on configuration or
      on any provider. */
  lemma LocalAnswersIgnoreServices(field: Option<string>, cfg: Config, services: Services,
                                   cfg': Config, services': Services)
    requires RouteOf(Question(field)).Guidance? || RouteOf(Question(field)).KbAnswer?
    ensures Answer(field, cfg, services) == Answer(field, cfg', services')
  {
  }

  /** Because no topic occurs inside another, the topic chosen for a
      knowledge-base answer is always the first topic inside the cleaned
      question, whether or not the question is itself a topic. */
  lemma TopicIsFirstInside(clean: string)
    requires TopicFor(clean).Some?
    ensures exists n :: (0 <= n < |KnowledgeBase| && KnowledgeBase[n].0 == TopicFor(clean).value
                         && FirstTopicIn(clean, 0) == Some(n))
  {
    match TopicIndex(clean, 0)
    case Some(n) =>
      ExactHitIsFirstTopic(clean);
    case None =>
      var n := FirstTopicIn(clean, 0).value;
      assert KnowledgeBase[n].0 == TopicFor(clean).value;
  }
}

=== FILE: router_examples.dfy ===
/** Worked examples of routing, each computed from the model. Keyword
    tests are settled by a character of the keyword the question lacks. */
module RouterExamples {

  import opened Options
  import opened Text
  import opened Intents
  import opened Knowledge
  import opened Adapters
  import opened Router

  /** `t` has none of the characters of `cs`. */
  predicate Lacks(t: string, cs: string)
  {
    forall x :: 0 <= x < |t| ==> t[x] !in cs
  }

  /** No keyword of `ks` occurs in `t` when every keyword has a character,
      at the position `at` gives for it, that `t` lacks. */
  lemma KeywordsLackingFrom(t: string, cs: string, ks: seq<string>, at: seq<nat>)
    requires Lacks(t, cs)
    requires |at| == |ks| && forall n :: 0 <= n < |ks| ==> at[n] < |ks[n]| && ks[n][at[n]] in cs
    ensures !Mentions(t, ks)
  {
    forall n | 0 <= n < |ks|
      ensures !Occurs(t, ks[n])
    {
      MissingCharNeverOccurs(t, ks[n], at[n]);
    }
  }

  /** No service keyword occurs in `t` when `t` lacks a character of every
      one; the four position lists name that character in each keyword of
      the four lists, in order. */
  lemma NoServiceKeyword(t: string, cs: string, weather: seq<nat>, stock: seq<nat>, news: seq<nat>, dictionary: seq<nat>)
    requires Lacks(t, cs)
    requires |weather| == |WeatherKeywords| && forall n :: 0 <= n < |WeatherKeywords| ==>
      weather[n] < |WeatherKeywords[n]| && WeatherKeywords[n][weather[n]] in cs
    requires |stock| == |StockKeywords| && forall n :: 0 <= n < |StockKeywords| ==>
      stock[n] < |StockKeywords[n]| && StockKeywords[n][stock[n]] in cs
    requires |news| == |NewsKeywords| && forall n :: 0 <= n < |NewsKeywords| ==>
      news[n] < |NewsKeywords[n]| && NewsKeywords[n][news[n]] in cs
    requires |dictionary| == |DictionaryKeywords| && forall n :: 0 <= n < |DictionaryKeywords| ==>
      dictionary[n] < |DictionaryKeywords[n]| && DictionaryKeywords[n][dictionary[n]] in cs
    ensures !Mentions(t, WeatherKeywords) && !Mentions(t, StockKeywords)
    ensures !Mentions(t, NewsKeywords) && !Mentions(t, DictionaryKeywords)
  {
    KeywordsLackingFrom(t, cs, WeatherKeywords, weather);
    KeywordsLackingFrom(t, cs, StockKeywords, stock);
    KeywordsLackingFrom(t, cs, NewsKeywords, news);
    KeywordsLackingFrom(t, cs, DictionaryKeywords, dictionary);
  }

  /** A question whose lower-cased text mentions no service keyword goes to
      the knowledge base. */
  lemma ClassifyWithoutKeywords(text: string)
    requires !Mentions(Lower(text), WeatherKeywords) && !Mentions(Lower(text), StockKeywords)
    requires !Mentions(Lower(text), NewsKeywords) && !Mentions(Lower(text), DictionaryKeywords)
    ensures Classify(text) == Intent.Kb
  {
  }

  /** A knowledge-base question with a topic is answered from the table. */
  lemma KbRoute(question: string, key: string)
    requires question != [] && Classify(question) == Intent.Kb && TopicFor(Cleaned(question)) == Some(key)
    ensures RouteOf(question) == KbAnswer(key)
  {
  }

  // Blank questions

  lemma SpacesAreBlank()
    ensures IsBlank(" \t ")
  {
    assert Strip(" \t ") == [];
  }

  /** A missing question and one of white space alone both get the guidance. */
  lemma BlankQuestionGetsGuidance(cfg: Config, services: Services)
    ensures Answer(None, cfg, services) == GuidanceEnvelope
    ensures Answer(Some(" \t "), cfg, services) == GuidanceEnvelope
  {
    SpacesAreBlank();
  }

  // "What is gravity": an exact alias

  lemma WhatIsGravityText()
    ensures Question(Some("What is gravity")) == "What is gravity"
    ensures Lower("What is gravity") == "what is gravity"
  {
    var s, t := "What is gravity", "what is gravity";
    StripOfStripped(s);
    forall i | 0 <= i < |s|
      ensures Lower(s)[i] == t[i]
    {
      if i > 0 {
        assert s[i] == t[i];
      }
    }
  }

  lemma WhatIsGravityCleaned()
    ensures Cleaned("What is gravity") == "gravity"
  {
    WhatIsGravityText();
    StripOfStripped("what is gravity");
  }

  /** "what is gravity" lacks c, d, e, f, m, n, o and p, and each service keyword has one of them. */
  lemma WhatIsGravityHasNoKeyword()
    ensures !Mentions("what is gravity", WeatherKeywords) && !Mentions("what is gravity", StockKeywords)
    ensures !Mentions("what is gravity", NewsKeywords) && !Mentions("what is gravity", DictionaryKeywords)
  {
    NoServiceKeyword("what is gravity", "cdefmnop", [1, 1, 0], [2, 4, 0, 2], [0, 1, 2], [0, 0, 2, 1]);
  }

  lemma GravityIsATopic()
    ensures TopicFor("gravity") == Some("gravity")
  {
    assert KnowledgeBase[0].0 == "photosynthesis" && KnowledgeBase[1].0 == "gravity";
    assert TopicIndex("gravity", 0) == Some(1);
  }

  /** "What is gravity" is an alias of the topic gravity. */
  lemma RouteWhatIsGravity()
    ensures RouteOf("What is gravity") == KbAnswer("gravity")
  {
    WhatIsGravityText();
    WhatIsGravityHasNoKeyword();
    ClassifyWithoutKeywords("What is gravity");
    WhatIsGravityCleaned();
    GravityIsATopic();
    KbRoute("What is gravity", "gravity");
  }

  // "what is   gravity": not an alias, but the topic is inside

  lemma SpacedGravityStripped()
    ensures Question(Some("what is   gravity")) == "what is   gravity"
    ensures Lower("what is   gravity") == "what is   gravity"
  {
    var t := "what is   gravity";
    StripOfStripped(t);
    LowerOfLowerCase(t);
  }

  lemma SpacedGravityText()
    ensures Question(Some("what is   gravity")) == "what is   gravity"
    ensures Lower("what is   gravity") == "what is   gravity"
    ensures Cleaned("what is   gravity") == "what is   gravity"
  {
    SpacedGravityStripped();
    assert "what is   gravity" !in Aliases;
  }

  /** "what is   gravity" lacks c, d, e, f, m, n, o and p, and each service keyword has one of them. */
  lemma SpacedGravityHasNoKeyword()
    ensures !Mentions("what is   gravity", WeatherKeywords) && !Mentions("what is   gravity", StockKeywords)
    ensures !Mentions("what is   gravity", NewsKeywords) && !Mentions("what is   gravity", DictionaryKeywords)
  {
    NoServiceKeyword("what is   gravity", "cdefmnop", [1, 1, 0], [2, 4, 0, 2], [0, 1, 2], [0, 0, 2, 1]);
  }

  lemma GravityInsideSpacedGravity()
    ensures TopicFor("what is   gravity") == Some("gravity")
  {
    var t := "what is   gravity";
    assert KnowledgeBase[0].0 == "photosynthesis" && KnowledgeBase[1].0 == "gravity";
    assert Lacks(t, "p");
    MissingCharNeverOccurs(t, "photosynthesis", 0);
    ContainsIsOccurs(t, "photosynthesis");
    assert t[10..17] == "gravity";
    StartsAtIsSlice(t, 10, "gravity");
    ContainsIsOccurs(t, "gravity");
    assert FirstTopicIn(t, 0) == Some(1);
  }

  /** With extra spaces the question is no longer the alias, but the topic
      is found inside it. */
  lemma RouteSpacedGravity()
    ensures RouteOf("what is   gravity") == KbAnswer("gravity")
  {
    SpacedGravityText();
    SpacedGravityHasNoKeyword();
    ClassifyWithoutKeywords("what is   gravity");
    GravityInsideSpacedGravity();
    KbRoute("what is   gravity", "gravity");
  }

  lemma GravityText()
    ensures Lookup("gravity") == Some("Gravity is a force that attracts two bodies toward each other.")
  {
    assert KnowledgeBase[1] == ("gravity", "Gravity is a force that attracts two bodies toward each other.");
    assert TopicIndex("gravity", 0) == Some(1);
  }

  /** Both phrasings get the same answer, whatever is configured. */
  lemma BothGravityPhrasingsAgree(cfg: Config, services: Services)
    ensures Answer(Some("What is gravity"), cfg, services)
         == Answer(Some("what is   gravity"), cfg, services)
         == Envelope(true, "Gravity is a force that attracts two bodies toward each other.", KbSuggestions)
  {
    WhatIsGravityText();
    RouteWhatIsGravity();
    SpacedGravityText();
    RouteSpacedGravity();
    GravityText();
  }

  // "gravitation": a one-word alias

  lemma GravitationText()
    ensures Lower("gravitation") == "gravitation"
    ensures Cleaned("gravitation") == "gravity"
  {
    StripOfStripped("gravitation");
    LowerOfLowerCase("gravitation");
  }

  /** "gravitation" lacks c, d, e, f, h, m, p, s, w and y, and each service keyword has one of them. */
  lemma GravitationHasNoKeyword()
    ensures !Mentions("gravitation", WeatherKeywords) && !Mentions("gravitation", StockKeywords)
    ensures !Mentions("gravitation", NewsKeywords) && !Mentions("gravitation", DictionaryKeywords)
  {
    NoServiceKeyword("gravitation", "cdefhmpswy", [0, 1, 0], [0, 0, 0, 2], [1, 0, 2], [0, 0, 0, 5]);
  }

  lemma RouteGravitation()
    ensures RouteOf("gravitation") == KbAnswer("gravity")
  {
    GravitationText();
    GravitationHasNoKeyword();
    ClassifyWithoutKeywords("gravitation");
    GravityIsATopic();
    KbRoute("gravitation", "gravity");
  }

  // "define noun": an alias, but the dictionary keyword decides first

  lemma DefineNounText()
    ensures Lower("define noun") == "define noun"
  {
    LowerOfLowerCase("define noun");
  }

  /** "define noun" lacks h, p, r, s, t and w, and each weather, stock and
      news keyword has one of them. */
  lemma DefineNounHasNoEarlierKeyword()
    ensures !Mentions("define noun", WeatherKeywords) && !Mentions("define noun", StockKeywords)
    ensures !Mentions("define noun", NewsKeywords)
  {
    KeywordsLackingFrom("define noun", "hprstw", WeatherKeywords, [0, 0, 2]);
    KeywordsLackingFrom("define noun", "hprstw", StockKeywords, [0, 0, 0, 0]);
    KeywordsLackingFrom("define noun", "hprstw", NewsKeywords, [2, 0, 0]);
  }

  /** "define noun" is listed as an alias of the topic noun, yet the intent
      is read off the question first, so it goes to the dictionary. */
  lemma RouteDefineNoun()
    ensures "define noun" in Aliases
    ensures RouteOf("define noun") == Adapter(Dictionary)
  {
    DefineNounText();
    DefineNounHasNoEarlierKeyword();
    assert DictionaryKeywords[0] == "define" && StartsAt("define noun", 0, "define");
  }

  // "why is the sky blue": no keyword and no topic

  lemma SkyText()
    ensures Lower("why is the sky blue") == "why is the sky blue"
    ensures Cleaned("why is the sky blue") == "why is the sky blue"
  {
    var t := "why is the sky blue";
    StripOfStripped(t);
    LowerOfLowerCase(t);
    assert t !in Aliases;
  }

  /** "why is the sky blue" lacks a, c, d, f, g, m, n, o, p, q and r, and each service keyword has one of them. */
  lemma SkyHasNoKeyword()
    ensures !Mentions("why is the sky blue", WeatherKeywords) && !Mentions("why is the sky blue", StockKeywords)
    ensures !Mentions("why is the sky blue", NewsKeywords) && !Mentions("why is the sky blue", DictionaryKeywords)
  {
    NoServiceKeyword("why is the sky blue", "acdfgmnopqr", [2, 2, 0], [2, 2, 0, 2], [0, 2, 1], [0, 0, 2, 0]);
  }

  lemma SkyHasNoTopic()
    ensures NoTopicFor("why is the sky blue")
  {
    var t := "why is the sky blue";
    assert KnowledgeBase[0].0 == "photosynthesis" && KnowledgeBase[1].0 == "gravity";
    assert KnowledgeBase[2].0 == "equation" && KnowledgeBase[3].0 == "noun";
    assert Lacks(t, "gnpq");
    MissingCharNeverOccurs(t, "photosynthesis", 0);
    MissingCharNeverOccurs(t, "gravity", 0);
    MissingCharNeverOccurs(t, "equation", 1);
    MissingCharNeverOccurs(t, "noun", 0);
  }

  /** A question with no keyword and no topic falls back to the model. */
  lemma RouteSky()
    ensures RouteOf("why is the sky blue") == LlmFallback
  {
    SkyText();
    SkyHasNoKeyword();
    ClassifyWithoutKeywords("why is the sky blue");
    SkyHasNoTopic();
  }
}

=== FILE: scan.dfy ===
/** The fragment of Python's `re` that the service's extractors use:
      head  \s+  ( word \s+ )?  ( class{1,n} )
    with a `re.search` that reports the leftmost start at which the pattern
    matches. The scanning functions below are proved against a declarative
    description of the language the pattern denotes (`ValidAt`) and of the
    match Python's backtracking picks among those (`BestAt`, `Leftmost`). */
module Scan {

  import opened Options
  import opened Text

  /** What stands between the head keyword and the captured run. */
  datatype Link =
    | Spaces                   // `\s+`
    | OptionalWord(w: string)  // `\s+(?:w\s+)?`, which is the language of `(?:\s+w)?\s+`
    | RequiredWord(w: string)  // `\s+w\s+`

  /** How many characters the captured run may hold: `+` or `{1,n}`. */
  datatype Bound = Unbounded | AtMost(n: nat)

  datatype Pattern = Pattern(heads: seq<(string, Link)>, chars: CharClass, bound: Bound)

  /** One span match: the pattern starts at `at`, its group is `[start, end)`. */
  datatype Match = Match(at: nat, start: nat, end: nat)

  predicate Within(b: Bound, len: nat)
  {
    match b
    case Unbounded => true
    case AtMost(n) => len <= n
  }

  /** A joining word begins with a character that is not white space, so a
      run of white space cannot swallow its first letter. */
  predicate LinkOk(link: Link)
  {
    match link
    case Spaces => true
    case OptionalWord(w) => w != [] && !IsSpace(w[0])
    case RequiredWord(w) => w != [] && !IsSpace(w[0])
  }

  /** Well-formed patterns: non-empty heads that start with distinct
      characters (so at most one alternative fits at any index), well-formed
      links, and a bound that admits a one-character run. */
  predicate PatternOk(p: Pattern)
  {
    && (forall h :: 0 <= h < |p.heads| ==> p.heads[h].0 != [] && LinkOk(p.heads[h].1))
    && (forall h, h' :: 0 <= h < h' < |p.heads| ==> p.heads[h].0[0] != p.heads[h'].0[0])
    && (p.bound.AtMost? ==> p.bound.n >= 1)
  }

  /** `(j, e)` comes no later than `(j', e')` in the order in which Python's
      backtracking prefers captures: a later start, then a longer run. */
  predicate Before(j: nat, e: nat, j': nat, e': nat)
  {
    j < j' || (j == j' && e <= e')
  }

  // ---------------------------------------------------------------------
  // The language of a pattern, stated declaratively

  /** `t[j..e]` is a non-empty run of class `k` within bound `b`. */
  ghost predicate ValidRun(t: string, j: nat, e: nat, k: CharClass, b: Bound)
  {
    j < e <= |t| && AllIn(t, j, e, k) && Within(b, e - j)
  }

  /** `\s+(k{b})` matches from `p` with its group at `[j, e)`. */
  ghost predicate ValidSpaced(t: string, p: nat, k: CharClass, b: Bound, j: nat, e: nat)
  {
    p < j <= |t| && AllIn(t, p, j, Whitespace) && ValidRun(t, j, e, k, b)
  }

  /** `\s+w\s+(k{b})` matches from `p` with its group at `[j, e)`. */
  ghost predicate ValidViaWord(t: string, p: nat, w: string, k: CharClass, b: Bound, j: nat, e: nat)
  {
    exists m: nat :: p < m <= |t| && AllIn(t, p, m, Whitespace) && StartsAt(t, m, w)
      && ValidSpaced(t, m + |w|, k, b, j, e)
  }

  ghost predicate ValidLinked(t: string, p: nat, link: Link, k: CharClass, b: Bound, j: nat, e: nat)
  {
    match link
    case Spaces => ValidSpaced(t, p, k, b, j, e)
    case OptionalWord(w) => ValidSpaced(t, p, k, b, j, e) || ValidViaWord(t, p, w, k, b, j, e)
    case RequiredWord(w) => ValidViaWord(t, p, w, k, b, j, e)
  }

  /** The pattern matches at index `i` with its group at `[j, e)`. */
  ghost predicate ValidAt(p: Pattern, t: string, i: nat, j: nat, e: nat)
  {
    && i < j < e <= |t|
    && exists h :: 0 <= h < |p.heads| && StartsAt(t, i, p.heads[h].0)
         && ValidLinked(t, i + |p.heads[h].0|, p.heads[h].1, p.chars, p.bound, j, e)
  }

  /** `(j, e)` is the group Python reports for a match at `i`: the valid one
      that backtracking reaches first. */
  ghost predicate BestAt(p: Pattern, t: string, i: nat, j: nat, e: nat)
  {
    && ValidAt(p, t, i, j, e)
    && forall j': nat, e': nat :: ValidAt(p, t, i, j', e') ==> Before(j', e', j, e)
  }

  /** What `re.search` reports: the best match at the leftmost matching index. */
  ghost predicate Leftmost(p: Pattern, t: string, i: nat, j: nat, e: nat)
  {
    && BestAt(p, t, i, j, e)
    && forall i': nat, j': nat, e': nat :: i' < i ==> !ValidAt(p, t, i', j', e')
  }

  ghost predicate NoMatch(p: Pattern, t: string)
  {
    forall i: nat, j: nat, e: nat :: !ValidAt(p, t, i, j, e)
  }

  // ---------------------------------------------------------------------
  // Scanning

  /** Where the greedy `k{b}` that starts at `j` stops. */
  function CaptureEnd(t: string, j: nat, k: CharClass, b: Bound): (e: nat)
    requires j <= |t|
    ensures j <= e <= |t| && AllIn(t, j, e, k) && Within(b, e - j)
    ensures forall e': nat :: ValidRun(t, j, e', k, b) ==> e' <= e
  {
    RunEndIsMaximalAll(t, j, k);
    var e := RunEnd(t, j, k);
    match b
    case Unbounded => e
    case AtMost(n) => if e - j <= n then e else j + n
  }

  lemma RunEndIsMaximalAll(t: string, a: nat, k: CharClass)
    requires a <= |t|
    ensures forall b :: a <= b <= |t| && AllIn(t, a, b, k) ==> b <= RunEnd(t, a, k)
  {
    forall b | a <= b <= |t| && AllIn(t, a, b, k)
      ensures b <= RunEnd(t, a, k)
    {
      RunEndIsMaximal(t, a, b, k);
    }
  }

  /** `\s+(k{b})` at `p`, with Python's choice of group. */
  function SpacedCapture(t: string, p: nat, k: CharClass, b: Bound): (r: Option<(nat, nat)>)
    requires p <= |t|
    requires b.AtMost? ==> b.n >= 1
    ensures r.None? ==> forall j: nat, e: nat :: !ValidSpaced(t, p, k, b, j, e)
    ensures r.Some? ==> ValidSpaced(t, p, k, b, r.value.0, r.value.1)
    ensures r.Some? ==> forall j: nat, e: nat :: ValidSpaced(t, p, k, b, j, e) ==> Before(j, e, r.value.0, r.value.1)
  {
    RunEndIsMaximalAll(t, p, Whitespace);
    var w := RunEnd(t, p, Whitespace);
    if w < |t| && InClass(t[w], k) && w > p then
      Some((w, CaptureEnd(t, w, k, b)))
    else if AdmitsSpace(k) && w - 1 > p then
      SpaceInClass(t[w - 1], k);
      Some((w - 1, CaptureEnd(t, w - 1, k, b)))
    else
      SpacedFails(t, p, k, b);
      None
  }

  /** When neither the end of the white-space run nor (for a class with
      white space) its last character can start the group, nothing matches. */
  lemma SpacedFails(t: string, p: nat, k: CharClass, b: Bound)
    requires p <= |t|
    requires var w := RunEnd(t, p, Whitespace);
      (w == p || !(w < |t| && InClass(t[w], k))) && !(AdmitsSpace(k) && w - 1 > p)
    ensures forall j: nat, e: nat :: !ValidSpaced(t, p, k, b, j, e)
  {
    var w := RunEnd(t, p, Whitespace);
    forall j: nat, e: nat
      ensures !ValidSpaced(t, p, k, b, j, e)
    {
      if ValidSpaced(t, p, k, b, j, e) {
        RunEndIsMaximal(t, p, j, Whitespace);
        assert InClass(t[j], k);
        if j < w {
          SpaceInClass(t[j], k);
        }
      }
    }
  }

  /** `\s+w\s+(k{b})` at `p`, with Python's choice of group. */
  function WordThenCapture(t: string, p: nat, w: string, k: CharClass, b: Bound): (r: Option<(nat, nat)>)
    requires p <= |t| && w != [] && !IsSpace(w[0])
    requires b.AtMost? ==> b.n >= 1
    ensures r.None? ==> forall j: nat, e: nat :: !ValidViaWord(t, p, w, k, b, j, e)
    ensures r.Some? ==> ValidViaWord(t, p, w, k, b, r.value.0, r.value.1)
    ensures r.Some? ==> forall j: nat, e: nat :: ValidViaWord(t, p, w, k, b, j, e) ==> Before(j, e, r.value.0, r.value.1)
    ensures r.Some? ==> RunEnd(t, p, Whitespace) < r.value.0
  {
    ViaWordIsAfterSpaces(t, p, w, k, b);
    var m := RunEnd(t, p, Whitespace);
    if m > p && StartsAt(t, m, w) then SpacedCapture(t, m + |w|, k, b) else None
  }

  /** The joining word of any `\s+w\s+` match sits right after the longest
      white-space run from `p`. */
  lemma ViaWordIsAfterSpaces(t: string, p: nat, w: string, k: CharClass, b: Bound)
    requires p <= |t| && w != [] && !IsSpace(w[0])
    ensures var m := RunEnd(t, p, Whitespace);
      forall j: nat, e: nat :: ValidViaWord(t, p, w, k, b, j, e) <==>
        (m > p && StartsAt(t, m, w) && ValidSpaced(t, m + |w|, k, b, j, e))
  {
    var m := RunEnd(t, p, Whitespace);
    forall j: nat, e: nat | ValidViaWord(t, p, w, k, b, j, e)
      ensures m > p && StartsAt(t, m, w) && ValidSpaced(t, m + |w|, k, b, j, e)
    {
      var m' :| p < m' <= |t| && AllIn(t, p, m', Whitespace) && StartsAt(t, m', w)
        && ValidSpaced(t, m' + |w|, k, b, j, e);
      RunEndIsMaximal(t, p, m', Whitespace);
      assert t[m'] == t[m'..m' + |w|][0] == w[0];
      assert m' == m;
    }
    forall j: nat, e: nat | m > p && StartsAt(t, m, w) && ValidSpaced(t, m + |w|, k, b, j, e)
      ensures ValidViaWord(t, p, w, k, b, j, e)
    {
    }
  }

  /** The group Python picks for the link `link` at `p`. */
  function LinkedCapture(t: string, p: nat, link: Link, k: CharClass, b: Bound): (r: Option<(nat, nat)>)
    requires p <= |t| && LinkOk(link)
    requires b.AtMost? ==> b.n >= 1
    ensures r.None? ==> forall j: nat, e: nat :: !ValidLinked(t, p, link, k, b, j, e)
    ensures r.Some? ==> ValidLinked(t, p, link, k, b, r.value.0, r.value.1)
    ensures r.Some? ==> forall j: nat, e: nat :: ValidLinked(t, p, link, k, b, j, e) ==> Before(j, e, r.value.0, r.value.1)
  {
    match link
    case Spaces => SpacedCapture(t, p, k, b)
    case RequiredWord(w) => WordThenCapture(t, p, w, k, b)
    case OptionalWord(w) =>
      var viaWord := WordThenCapture(t, p, w, k, b);
      if viaWord.Some? then
        SpacedStartsBeforeRunEnd(t, p, k, b);
        viaWord
      else
        SpacedCapture(t, p, k, b)
  }

  lemma SpacedStartsBeforeRunEnd(t: string, p: nat, k: CharClass, b: Bound)
    requires p <= |t|
    ensures forall j: nat, e: nat :: ValidSpaced(t, p, k, b, j, e) ==> j <= RunEnd(t, p, Whitespace)
  {
    RunEndIsMaximalAll(t, p, Whitespace);
  }

  /** The index of the head that starts at `i`, if one does. */
  function HeadAt(heads: seq<(string, Link)>, t: string, i: nat): (r: Option<nat>)
    ensures r.Some? ==> r.value < |heads| && StartsAt(t, i, heads[r.value].0)
    ensures r.None? ==> forall h :: 0 <= h < |heads| ==> !StartsAt(t, i, heads[h].0)
  {
    if heads == [] then None
    else if StartsAt(t, i, heads[0].0) then Some(0)
    else
      match HeadAt(heads[1..], t, i)
      case None => None
      case Some(h) => Some(h + 1)
  }

  /** Two heads with distinct first characters never start at the same index. */
  lemma HeadsExclusive(p: Pattern, t: string, i: nat, h: nat, h': nat)
    requires PatternOk(p)
    requires h < |p.heads| && h' < |p.heads|
    requires StartsAt(t, i, p.heads[h].0) && StartsAt(t, i, p.heads[h'].0)
    ensures h == h'
  {
  }

  /** The group Python reports if the pattern matches at `i`. */
  function MatchAt(p: Pattern, t: string, i: nat): (r: Option<(nat, nat)>)
    requires PatternOk(p)
    ensures r.None? ==> forall j: nat, e: nat :: !ValidAt(p, t, i, j, e)
    ensures r.Some? ==> BestAt(p, t, i, r.value.0, r.value.1)
  {
    match HeadAt(p.heads, t, i)
    case None => None
    case Some(h) =>
      var head := p.heads[h];
      HeadDecides(p, t, i, h);
      LinkedCapture(t, i + |head.0|, head.1, p.chars, p.bound)
  }

  /** Once head `h` starts at `i`, the matches at `i` are exactly its link's matches. */
  lemma HeadDecides(p: Pattern, t: string, i: nat, h: nat)
    requires PatternOk(p) && h < |p.heads| && StartsAt(t, i, p.heads[h].0)
    ensures forall j: nat, e: nat :: ValidAt(p, t, i, j, e) <==>
      ValidLinked(t, i + |p.heads[h].0|, p.heads[h].1, p.chars, p.bound, j, e)
  {
    forall j: nat, e: nat | ValidAt(p, t, i, j, e)
      ensures ValidLinked(t, i + |p.heads[h].0|, p.heads[h].1, p.chars, p.bound, j, e)
    {
      var h' :| 0 <= h' < |p.heads| && StartsAt(t, i, p.heads[h'].0)
        && ValidLinked(t, i + |p.heads[h'].0|, p.heads[h'].1, p.chars, p.bound, j, e);
      HeadsExclusive(p, t, i, h, h');
    }
    forall j: nat, e: nat | ValidLinked(t, i + |p.heads[h].0|, p.heads[h].1, p.chars, p.bound, j, e)
      ensures ValidAt(p, t, i, j, e)
    {
      LinkedIsLater(t, i + |p.heads[h].0|, p.heads[h].1, p.chars, p.bound, j, e);
    }
  }

  lemma LinkedIsLater(t: string, p: nat, link: Link, k: CharClass, b: Bound, j: nat, e: nat)
    requires ValidLinked(t, p, link, k, b, j, e)
    ensures p < j < e <= |t|
  {
  }

  /** `re.search`: the leftmost index at or after `from` where the pattern matches. */
  function Search(p: Pattern, t: string, from: nat): (r: Option<Match>)
    requires PatternOk(p)
    ensures r.None? ==> forall i: nat, j: nat, e: nat :: from <= i ==> !ValidAt(p, t, i, j, e)
    ensures r.Some? ==> from <= r.value.at && BestAt(p, t, r.value.at, r.value.start, r.value.end)
    ensures r.Some? ==> forall i: nat, j: nat, e: nat :: from <= i < r.value.at ==> !ValidAt(p, t, i, j, e)
    decreases |t| + 1 - from
  {
    if from > |t| then None
    else
      match MatchAt(p, t, from)
      case Some((j, e)) => Some(Match(from, j, e))
      case None => Search(p, t, from + 1)
  }

  /** `re.search` from the start of the text reports the leftmost match, and
      reports nothing exactly when the pattern matches nowhere. */
  lemma SearchIsLeftmost(p: Pattern, t: string)
    requires PatternOk(p)
    ensures Search(p, t, 0).None? <==> NoMatch(p, t)
    ensures forall m :: Search(p, t, 0) == Some(m) ==> Leftmost(p, t, m.at, m.start, m.end)
  {
  }

  /** There is only one leftmost match. */
  lemma LeftmostUnique(p: Pattern, t: string, i: nat, j: nat, e: nat, i': nat, j': nat, e': nat)
    requires Leftmost(p, t, i, j, e) && Leftmost(p, t, i', j', e')
    ensures i == i' && j == j' && e == e'
  {
    assert !(i' < i) && !(i < i');
  }

  /** Whatever `Search` reports is the one leftmost match. */
  lemma SearchDecidesLeftmost(p: Pattern, t: string, i: nat, j: nat, e: nat)
    requires PatternOk(p) && Leftmost(p, t, i, j, e)
    ensures Search(p, t, 0) == Some(Match(i, j, e))
  {
    SearchIsLeftmost(p, t);
    assert !NoMatch(p, t);
    var m := Search(p, t, 0).value;
    LeftmostUnique(p, t, i, j, e, m.at, m.start, m.end);
  }

  /** Whatever `Search` reports is the one leftmost match, for every leftmost match. */
  lemma SearchDecidesAll(p: Pattern, t: string)
    requires PatternOk(p)
    ensures forall i: nat, j: nat, e: nat :: Leftmost(p, t, i, j, e) ==> Search(p, t, 0) == Some(Match(i, j, e))
  {
    forall i: nat, j: nat, e: nat | Leftmost(p, t, i, j, e)
      ensures Search(p, t, 0) == Some(Match(i, j, e))
    {
      SearchDecidesLeftmost(p, t, i, j, e);
    }
  }

  /** At one index there is only one best match. */
  lemma BestAtUnique(p: Pattern, t: string, i: nat, j: nat, e: nat, j': nat, e': nat)
    requires BestAt(p, t, i, j, e) && BestAt(p, t, i, j', e')
    ensures j == j' && e == e'
  {
    assert Before(j, e, j', e') && Before(j', e', j, e);
  }

  /** The group of any match is a run of the pattern's class within its bound. */
  lemma ValidAtRun(p: Pattern, t: string, i: nat, j: nat, e: nat)
    requires ValidAt(p, t, i, j, e)
    ensures ValidRun(t, j, e, p.chars, p.bound)
  {
    var h :| 0 <= h < |p.heads| && StartsAt(t, i, p.heads[h].0)
      && ValidLinked(t, i + |p.heads[h].0|, p.heads[h].1, p.chars, p.bound, j, e);
  }
}

=== FILE: text.dfy ===
/** String primitives with the meaning Python's `str` methods give them,
    restricted to ASCII where Python consults the Unicode case tables. */
module Text {

  import opened Options

  /** The characters Python's `str.isspace` accepts; `\s` in a `re` pattern
      over `str`, and `str.strip()` without arguments, use the same set. */
  predicate IsSpace(c: char)
  {
    || c == ' '
    || '\t' <= c <= '\r'
    || '\U{1C}' <= c <= '\U{1F}'
    || c == '\U{85}' || c == '\U{A0}' || c == '\U{1680}'
    || '\U{2000}' <= c <= '\U{200A}'
    || c == '\U{2028}' || c == '\U{2029}' || c == '\U{202F}'
    || c == '\U{205F}' || c == '\U{3000}'
  }

  predicate IsUpper(c: char) { 'A' <= c <= 'Z' }

  predicate IsLower(c: char) { 'a' <= c <= 'z' }

  predicate IsLetter(c: char) { IsUpper(c) || IsLower(c) }

  function ToLower(c: char): (d: char)
    ensures !IsUpper(d)
    ensures IsLetter(d) <==> IsLetter(c)
    ensures IsSpace(d) <==> IsSpace(c)
  {
    if IsUpper(c) then (c as int + 32) as char else c
  }

  function ToUpper(c: char): (d: char)
    ensures !IsLower(d)
    ensures IsLetter(d) <==> IsLetter(c)
  {
    if IsLower(c) then (c as int - 32) as char else c
  }

  /** `str.lower()`, on ASCII letters only. */
  function Lower(s: string): (r: string)
    ensures |r| == |s|
    ensures forall i :: 0 <= i < |s| ==> r[i] == ToLower(s[i])
  {
    seq(|s|, i requires 0 <= i < |s| => ToLower(s[i]))
  }

  /** `str.upper()`, on ASCII letters only. */
  function Upper(s: string): (r: string)
    ensures |r| == |s|
    ensures forall i :: 0 <= i < |s| ==> r[i] == ToUpper(s[i])
  {
    seq(|s|, i requires 0 <= i < |s| => ToUpper(s[i]))
  }

  lemma LowerIdempotent(s: string)
    ensures Lower(Lower(s)) == Lower(s)
  {
  }

  lemma LowerOfLowerCase(s: string)
    requires forall i :: 0 <= i < |s| ==> !IsUpper(s[i])
    ensures Lower(s) == s
  {
  }

  /** `str.capitalize()`: the first character upper-cased, the rest lower-cased. */
  function Capitalize(s: string): (r: string)
    ensures |r| == |s|
    ensures |s| > 0 ==> r[0] == ToUpper(s[0])
    ensures forall i :: 0 < i < |s| ==> r[i] == ToLower(s[i])
  {
    if s == [] then [] else [ToUpper(s[0])] + Lower(s[1..])
  }

  /** `str.title()`: a letter is upper-cased when the character before it is
      not a letter, and lower-cased otherwise; other characters are kept. */
  function Title(s: string): (r: string)
  {
    TitleAfter(s, false)
  }

  function TitleAfter(s: string, afterLetter: bool): (r: string)
    ensures |r| == |s|
    decreases |s|
  {
    if s == [] then []
    else if IsLetter(s[0]) then
      [if afterLetter then ToLower(s[0]) else ToUpper(s[0])] + TitleAfter(s[1..], true)
    else
      [s[0]] + TitleAfter(s[1..], false)
  }

  /** Every letter of `r` starts a word of `s` exactly when it is upper case. */
  ghost predicate TitleCased(s: string, r: string)
  {
    && |r| == |s|
    && (forall i :: 0 <= i < |s| && !IsLetter(s[i]) ==> r[i] == s[i])
    && (forall i :: 0 <= i < |s| && IsLetter(s[i]) && (i == 0 || !IsLetter(s[i - 1])) ==>
          r[i] == ToUpper(s[i]))
    && (forall i :: 0 < i < |s| && IsLetter(s[i]) && IsLetter(s[i - 1]) ==>
          r[i] == ToLower(s[i]))
  }

  lemma {:induction false} TitleAfterCased(s: string, afterLetter: bool)
    ensures var r := TitleAfter(s, afterLetter);
      && (forall i :: 0 <= i < |s| && !IsLetter(s[i]) ==> r[i] == s[i])
      && (|s| > 0 && IsLetter(s[0]) ==> r[0] == if afterLetter then ToLower(s[0]) else ToUpper(s[0]))
      && (forall i :: 0 < i < |s| && IsLetter(s[i]) && !IsLetter(s[i - 1]) ==> r[i] == ToUpper(s[i]))
      && (forall i :: 0 < i < |s| && IsLetter(s[i]) && IsLetter(s[i - 1]) ==> r[i] == ToLower(s[i]))
    decreases |s|
  {
    if s != [] {
      TitleAfterCased(s[1..], IsLetter(s[0]));
      var r := TitleAfter(s, afterLetter);
      var r' := TitleAfter(s[1..], IsLetter(s[0]));
      assert r == [r[0]] + r';
      forall i | 0 < i < |s|
        ensures r[i] == r'[i - 1] && s[i] == s[1..][i - 1]
      {
      }
    }
  }

  /** `Title` agrees with its declarative description. */
  lemma TitleIsTitleCased(s: string)
    ensures TitleCased(s, Title(s))
  {
    TitleAfterCased(s, false);
  }

  // ---------------------------------------------------------------------
  // Substrings

  /** `k` occurs in `t` starting at index `i`, compared character by character. */
  predicate StartsAt(t: string, i: nat, k: string)
    decreases |k|
  {
    i + |k| <= |t| && (k == [] || (t[i] == k[0] && StartsAt(t, i + 1, k[1..])))
  }

  lemma {:induction false} StartsAtIsSlice(t: string, i: nat, k: string)
    ensures StartsAt(t, i, k) <==> i + |k| <= |t| && t[i..i + |k|] == k
    decreases |k|
  {
    if k != [] && i + |k| <= |t| {
      StartsAtIsSlice(t, i + 1, k[1..]);
      assert t[i..i + |k|] == [t[i]] + t[i + 1..i + 1 + |k[1..]|];
      assert k == [k[0]] + k[1..];
    }
  }

  /** Python's `k in t` for strings, stated declaratively. */
  ghost predicate Occurs(t: string, k: string)
  {
    exists i: nat :: StartsAt(t, i, k)
  }

  /** Index of the leftmost occurrence of `k` in `t` at or after `from`. */
  function IndexFrom(t: string, k: string, from: nat): (r: Option<nat>)
    ensures r.Some? ==> from <= r.value && StartsAt(t, r.value, k)
    ensures r.Some? ==> forall i: nat :: from <= i < r.value ==> !StartsAt(t, i, k)
    ensures r.None? ==> forall i: nat :: from <= i ==> !StartsAt(t, i, k)
    decreases |t| + 1 - from
  {
    if from + |k| > |t| then None
    else if StartsAt(t, from, k) then Some(from)
    else IndexFrom(t, k, from + 1)
  }

  /** Python's `k in t`, computed. */
  predicate Contains(t: string, k: string)
  {
    IndexFrom(t, k, 0).Some?
  }

  lemma ContainsIsOccurs(t: string, k: string)
    ensures Contains(t, k) <==> Occurs(t, k)
  {
  }

  /** A string holding a character the text lacks does not occur in it. */
  lemma MissingCharNeverOccurs(t: string, k: string, x: nat)
    requires x < |k| && forall y :: 0 <= y < |t| ==> t[y] != k[x]
    ensures !Occurs(t, k)
  {
    forall i: nat | StartsAt(t, i, k)
      ensures false
    {
      StartsAtIsSlice(t, i, k);
    }
  }

  // ---------------------------------------------------------------------
  // Runs of characters

  /** The character classes the service's regular expressions use. */
  datatype CharClass =
    | Whitespace  // `\s`
    | CityChar    // `[a-zA-Z\s]`
    | TickerChar  // `[A-Za-z\.:-]`
    | WordChar    // `[a-zA-Z\-]`

  predicate InClass(c: char, k: CharClass)
  {
    match k
    case Whitespace => IsSpace(c)
    case CityChar => IsLetter(c) || IsSpace(c)
    case TickerChar => IsLetter(c) || c == '.' || c == ':' || c == '-'
    case WordChar => IsLetter(c) || c == '-'
  }

  /** Whether the class contains white space; such a class contains all of it. */
  predicate AdmitsSpace(k: CharClass)
  {
    k == Whitespace || k == CityChar
  }

  lemma SpaceInClass(c: char, k: CharClass)
    requires IsSpace(c)
    ensures InClass(c, k) <==> AdmitsSpace(k)
  {
  }

  /** Every character of `t[a..b]` is in class `k`. */
  ghost predicate AllIn(t: string, a: nat, b: nat, k: CharClass)
    requires b <= |t|
  {
    forall x :: a <= x < b ==> InClass(t[x], k)
  }

  /** The end of the longest run of class-`k` characters that starts at `a`. */
  function RunEnd(t: string, a: nat, k: CharClass): (e: nat)
    requires a <= |t|
    ensures a <= e <= |t|
    ensures AllIn(t, a, e, k)
    ensures e == |t| || !InClass(t[e], k)
    decreases |t| - a
  {
    if a == |t| || !InClass(t[a], k) then a else RunEnd(t, a + 1, k)
  }

  /** No run of class-`k` characters from `a` reaches past the end `RunEnd` finds. */
  lemma RunEndIsMaximal(t: string, a: nat, b: nat, k: CharClass)
    requires a <= b <= |t|
    requires AllIn(t, a, b, k)
    ensures b <= RunEnd(t, a, k)
  {
  }

  // ---------------------------------------------------------------------
  // Stripping white space

  /** The index after the last non-space character of `t[lo..hi]`, or `lo`. */
  function TrimEnd(t: string, lo: nat, hi: nat): (e: nat)
    requires lo <= hi <= |t|
    ensures lo <= e <= hi
    ensures AllIn(t, e, hi, Whitespace)
    ensures e == lo || !IsSpace(t[e - 1])
    decreases hi
  {
    if hi > lo && IsSpace(t[hi - 1]) then TrimEnd(t, lo, hi - 1) else hi
  }

  ghost predicate IsBlank(s: string)
  {
    forall i :: 0 <= i < |s| ==> IsSpace(s[i])
  }

  /** `str.strip()`: `s` without its leading and trailing white space. */
  function Strip(s: string): (r: string)
    ensures |r| <= |s|
    ensures r == [] <==> IsBlank(s)
    ensures r != [] ==> !IsSpace(r[0]) && !IsSpace(r[|r| - 1])
    ensures var a := RunEnd(s, 0, Whitespace);
      && a + |r| <= |s| && r == s[a..a + |r|]
      && AllIn(s, a + |r|, |s|, Whitespace)
  {
    var a := RunEnd(s, 0, Whitespace);
    var b := TrimEnd(s, a, |s|);
    assert b > a ==> s[a..b][0] == s[a];
    s[a..b]
  }

  lemma StripOfStripped(s: string)
    requires s == [] || (!IsSpace(s[0]) && !IsSpace(s[|s| - 1]))
    ensures Strip(s) == s
  {
    if s != [] {
      assert RunEnd(s, 0, Whitespace) == 0;
    }
  }

  lemma StripIdempotent(s: string)
    ensures Strip(Strip(s)) == Strip(s)
  {
    StripOfStripped(Strip(s));
  }

  // ---------------------------------------------------------------------
  // Lines

  /** A single character that does not occur in `x` is first found right
      after `x`. */
  lemma FirstSeparator(s: string, from: nat, x: string, sep: char)
    requires from + |x| < |s| && s[from..from + |x|] == x && s[from + |x|] == sep && sep !in x
    ensures IndexFrom(s, [sep], from) == Some(from + |x|)
  {
    assert StartsAt(s, from + |x|, [sep]);
  }

  /** A character that does not occur in `s` is not found in it. */
  lemma NoSeparator(s: string, from: nat, sep: char)
    requires sep !in s
    ensures IndexFrom(s, [sep], from).None?
  {
  }

  /** `"\n".join(lines)`. */
  function JoinLines(lines: seq<string>): (r: string)
    ensures |lines| == 1 ==> r == lines[0]
  {
    if lines == [] then ""
    else if |lines| == 1 then lines[0]
    else lines[0] + "\n" + JoinLines(lines[1..])
  }

  /** `s.split("\n")`: the pieces between line breaks, always at least one. */
  function SplitLines(s: string): (r: seq<string>)
    ensures |r| >= 1
    ensures forall n :: 0 <= n < |r| ==> '\n' !in r[n]
    decreases |s|
  {
    match IndexFrom(s, "\n", 0)
    case None =>
      assert forall c :: c in s ==> c != '\n' by {
        forall x | 0 <= x < |s| ensures s[x] != '\n' {
          assert !StartsAt(s, x, "\n");
        }
      }
      [s]
    case Some(k) =>
      assert forall x :: 0 <= x < k ==> s[x] != '\n' by {
        forall x | 0 <= x < k ensures s[x] != '\n' {
          assert !StartsAt(s, x, "\n");
        }
      }
      [s[..k]] + SplitLines(s[k + 1..])
  }

  /** Splitting at a first line break gives the piece before it, then the
      split of the rest. */
  lemma SplitAtFirstBreak(s: string, k: nat)
    requires IndexFrom(s, "\n", 0) == Some(k)
    ensures SplitLines(s) == [s[..k]] + SplitLines(s[k + 1..])
  {
  }

  /** Joining two or more lines puts the first, a line break, then the join
      of the rest. */
  lemma JoinParts(lines: seq<string>)
    requires |lines| > 1
    ensures var s := JoinLines(lines); var k := |lines[0]|;
      k < |s| && s[..k] == lines[0] && s[k] == '\n' && s[k + 1..] == JoinLines(lines[1..])
  {
    var s := JoinLines(lines);
    assert s == lines[0] + "\n" + JoinLines(lines[1..]);
  }

  /** Joining lines that hold no line break and splitting the result again
      gives the lines back. */
  lemma {:induction false} SplitJoin(lines: seq<string>)
    requires lines != []
    requires forall n :: 0 <= n < |lines| ==> '\n' !in lines[n]
    ensures SplitLines(JoinLines(lines)) == lines
  {
    if |lines| == 1 {
      NoSeparator(lines[0], 0, '\n');
    } else {
      var s := JoinLines(lines);
      JoinParts(lines);
      FirstSeparator(s, 0, lines[0], '\n');
      SplitAtFirstBreak(s, |lines[0]|);
      SplitJoin(lines[1..]);
      assert lines == [lines[0]] + lines[1..];
    }
  }
}
